=== FILE: README.md ===
# Dilated ResNet plan, checkpoint rewrite and log-line decisions

This project models three parts of a PyTorch training repository for
four-channel protein images, together with the properties that hold of them.

- **Dilated ResNet** (`src/models/gluoncv_resnet_v7.py`). This part covers
  what the constructor builds and how the pieces fit together:
  - the SE gate widths and the convolutions of `BasicBlock` and `Bottleneck`;
  - `_make_layer`, including its downsample rule, its dilation mapping and
    its `RuntimeError` for unknown dilations;
  - the `ResNet` plan: stem, stages, the attention gate as written and the
    classifier widths;
  - the five factories `resnet18` … `resnet152`.

  Layers are recorded by their constructor arguments. Sizes follow PyTorch's
  convolution output formula, so the output stride (8 dilated, 32 plain) is
  proved, not assumed.
- **`warp_dict_fn`** (same file). It rewrites an ImageNet checkpoint for the
  four-channel stem. A checkpoint is modelled as a map from parameter names to
  tensor shapes. The rewrite changes the caller's dict in place, so the model
  also returns what a call that raises leaves behind.
- **Generic ResNet plan** (`src/models/resnet.py`). This covers
  `build_blocks` and the stage loop of the constructor.
- **Log lines** (`src/log.py`). This covers `TensorBoardX.tag` and the
  decisions of `LogParser.parse_log_dict`:
  - the learning-rate period lookup and the header line;
  - renaming `err` to `acc`;
  - the percent or decimal format;
  - the `,` / `\n` separators;
  - the metric lines;
  - the in-place additions to the log dicts.

  A message is a sequence of pieces in which numbers stay unformatted.

Python semantics the model relies on are written out:
- `range` lengths;
- `str.replace` as a left-to-right non-overlapping rewrite;
- substring `in`;
- dict assignment that keeps insertion order;
- `//` and PyTorch's floor-based size formula;
- the exceptions the code can raise, as an `Err` result.

Files: `python.dfy`, `convolution.dfy`, `dilated_blocks.dfy`,
`dilated_resnet.dfy`, `checkpoint.dfy`, `stage_plan.dfy`, `text.dfy`,
`tensorboard.dfy`, `log_parser.dfy`.

## Model

| member | source | states |
|---|---|---|
| Convolution.SamePaddedOutSize | src/models/gluoncv_resnet_v7.py:41-46 | A convolution padded by `dilation` per side with a 3x3 kernel (in general `2*padding == dilation*(kernel-1)`) maps size h to ceil(h / stride) under PyTorch's output formula. |
| Convolution.SamePaddedStack | src/models/gluoncv_resnet_v7.py:84-91 | A stack of such convolutions maps h to ceil(h / product of the strides). |
| DilatedBlocks.NewSe | src/models/gluoncv_resnet_v7.py:21-26 | `SE(num_channels, reduction_ratio)` fails exactly when the ratio is 0 (ZeroDivisionError) or negative with a positive channel count. In the negative case Python's floor quotient `num_channels // ratio` is negative and the linear layer given that width raises RuntimeError. Otherwise it keeps the channel count and squeezes to floor(num_channels / ratio), stated by its bounds; with a negative ratio this happens only for 0 channels, squeezed to 0. |
| DilatedBlocks.NewBlock | src/models/gluoncv_resnet_v7.py:39-51 | A block records its arguments. Its SE gate is `SE(planes * expansion, ratio)` (expansion 1 basic, 4 bottleneck), sized to the block's output width. Construction fails exactly when that SE does, with the same error. |
| DilatedBlocks.BlockGeometry | src/models/gluoncv_resnet_v7.py:82-92 | A block has 2 (basic) or 3 (bottleneck) main-path convolutions that chain from `inplanes` to `planes * expansion`. All are size-preserving apart from their strides, whose product is the block's stride. |
| DilatedBlocks.ResidualShapesAgree | src/models/gluoncv_resnet_v7.py:253-259 | When the downsample rule holds, the shortcut and the main path agree in width and spatial size, both ceil(h / stride). |
| DilatedResNet.MakeLayer | src/models/gluoncv_resnet_v7.py:252-276 | Any dilation outside {1, 2, 4} raises the unknown-dilation error. The first block gets dilation 1 (for 1 and 2) or 2 (for 4), the given stride and `previous_dilation`, and a 1x1 downsample exactly when `stride != 1` or the width changes. There are `max(1, blocks)` blocks; later ones have stride 1 and the layer's dilation. Every block's SE gate is `SE(planes * expansion, ratio)`, and with a supported dilation the layer fails exactly when that SE does, with its error. The running width becomes `planes * expansion`. |
| DilatedResNet.LayerInvariants | src/models/gluoncv_resnet_v7.py:252-276 | The blocks of a layer chain from its input width to `planes * expansion`, and every block satisfies the downsample rule. |
| DilatedResNet.LayerOutSize | src/models/gluoncv_resnet_v7.py:252-276 | A layer maps size h to ceil(h / stride). |
| DilatedResNet.Build | src/models/gluoncv_resnet_v7.py:193-240 | The constructor succeeds exactly with at least four layer counts, a positive SE ratio, `0 <= dropout <= 1` and `num_classes >= 0`. Otherwise it raises, in construction order, the first stage's SE error (ZeroDivisionError for ratio 0, RuntimeError for a negative ratio), IndexError (missing layer count), ValueError (`nn.Dropout`) or RuntimeError (the last `nn.Linear` with a negative `num_classes`). The stem width is 128 (deep base) or 64. Each of the four layers has the planes, stride and dilation the `dilated` flag selects, and every block's SE gate is `SE(planes * expansion, ratio)` for its layer's planes. The gate is `LevelAttentionModel(64, 64)` for every block class. The last linear layer maps 512 to `num_classes`. |
| DilatedResNet.NetChannelChain | src/models/gluoncv_resnet_v7.py:196-240 | The stem ends at the width `bn1` normalises. All blocks chain from there to `512 * expansion`, which is the classifier's input width, and the classifier's hidden widths agree. |
| DilatedResNet.NetSeGates | src/models/gluoncv_resnet_v7.py:48-51 | Every block of the built network ends in an SE gate as wide as the block's own output and squeezed by the block's reduction ratio. |
| DilatedResNet.NetResidualFits | src/models/gluoncv_resnet_v7.py:215-227 | Every block of every layer satisfies the downsample rule. |
| DilatedResNet.NetOutputStride | src/models/gluoncv_resnet_v7.py:210-227 | Stem, max pool and the four layers map size h to ceil(h / 8) when dilated and ceil(h / 32) otherwise. |
| DilatedResNet.DefaultInputFeatureSize | src/models/gluoncv_resnet_v7.py:193-227 | For the default 224x224 input the final feature map is 28 (dilated) or 7. |
| DilatedResNet.NetDilations | src/models/gluoncv_resnet_v7.py:218-227 | Every block of layer1 and layer2 has dilation and `previous_dilation` 1. Dilated: layer3's first block has dilation 1 and its later blocks 2; layer4's first block has 2 and its later blocks 4; `previous_dilation` is 2 throughout layer3 and 4 throughout layer4. Plain: every dilation in all four layers is 1. |
| DilatedResNet.AttentionAsWrittenMismatch | src/models/gluoncv_resnet_v7.py:215-216 | The built gate reads 64 channels while layer1 outputs `64 * expansion`. So the gate fits layer1 exactly for basic blocks; for bottleneck blocks layer1 outputs 256. |
| DilatedResNet.AttentionFitsLayer1 | src/models/gluoncv_resnet_v7.py:133-152 | The corrected gate `LevelAttentionModel(64 * expansion, 64)` reads layer1's output width. It chains five size-preserving 3x3 convolutions down to one channel and equals the written gate for basic blocks. |
| DilatedResNet.FactoryArch | src/models/gluoncv_resnet_v7.py:319-421 | A missing `se_kwargs` raises KeyError. Every factory passes four counts of at least 2. The block is basic exactly for depths 18 and 34. |
| DilatedResNet.Factory | src/models/gluoncv_resnet_v7.py:319-421 | A factory succeeds exactly when `se_kwargs` is passed, its ratio is positive (except for depths 101 and 152), the forwarded `dropout` lies in [0, 1] and `num_classes >= 0`. It otherwise raises KeyError, the SE error (ZeroDivisionError or RuntimeError), ValueError or the classifier's RuntimeError, in that order. |
| DilatedResNet.DeepFactoriesIgnoreSeKwargs | src/models/gluoncv_resnet_v7.py:382-421 | `resnet101` and `resnet152` build the same network whatever `se_kwargs` holds, because they pass the plain `Bottleneck` class. |
| DilatedResNet.LayerConvs | src/models/gluoncv_resnet_v7.py:272-273 | A layer has `max(1, blocks)` blocks of 2 or 3 main-path convolutions each. |
| DilatedResNet.NetMainPathConvs | src/models/gluoncv_resnet_v7.py:215-227 | The network's block convolutions number convolutions-per-block times the sum of the four stage lengths. |
| DilatedResNet.FactoryDepth | src/models/gluoncv_resnet_v7.py:319-421 | Each factory's main-path convolutions plus 2 give the depth in its name: 18, 34, 50, 101 or 152. The 2 counts one stem convolution and one fully connected layer, the convention the names follow. The modelled network itself has 1 or 3 stem convolutions and 2 linear layers. |
| Checkpoint.Cat | src/models/gluoncv_resnet_v7.py:312 | `torch.cat` succeeds exactly on shapes of equal rank that agree outside `dim`. The result adds up along `dim` and keeps the other dimensions. PyTorch's IndexError (bad `dim`) and RuntimeError (rank or size mismatch) are one error here. |
| Checkpoint.Warp | src/models/gluoncv_resnet_v7.py:307-316 | The KeyErrors come in reading order (`conv1.weight`, `fc.weight`, `fc.bias`), with a shape mismatch in between. The caller's dict is changed in place also when the call raises: unchanged after the first two errors, with the widened stem after a missing `fc.weight`, and also without `fc.weight` after a missing `fc.bias`. On success the returned dict is the caller's, its keys the input's minus the two classifier keys. Whenever the stem could be widened it gains one input channel, and every other remaining entry is unchanged. |
| Checkpoint.WarpFitsStem | src/models/gluoncv_resnet_v7.py:307-316 | An ImageNet stem weight 64x3x7x7 becomes exactly the weight shape of the model's 4-channel 7x7 stem convolution. |
| Checkpoint.WarpWithoutBias | src/models/gluoncv_resnet_v7.py:307-316 | A 64x3x7x7 stem with `fc.weight` but no `fc.bias`: the call raises KeyError for `fc.bias` and leaves the caller's dict holding only the 64x4x7x7 stem. |
| Checkpoint.WarpNotReapplicable | src/models/gluoncv_resnet_v7.py:307-316 | Applying the rewrite to its own output raises KeyError for `fc.weight`, after widening the stem a second time in place. |
| StagePlan.BuildBlocks | src/models/resnet.py:135-140 | A stage has `1 + len(range(1, length))` blocks. The first maps `in -> out` with the stage's stride; the rest map `out -> out` with stride 1; all use kernel 3. |
| StagePlan.BuildBlocksChain | src/models/resnet.py:135-140 | A stage chains from `in_channels` to `out_channels`, and its strides multiply to the stage's stride. |
| StagePlan.NewPlan | src/models/resnet.py:110-130 | The constructor's plan exists exactly when `num_features` and `strides` have more entries than `num_blocks`, otherwise IndexError. Stage i is `build_blocks(nf[i], nf[i+1], strides[i+1], num_blocks[i])`. The stem is `3 -> nf[0]`, kernel k, stride `strides[0]`, padding k//2. Max pool, post-norm and `fc2` widths follow their flags. |
| StagePlan.StagesChain | src/models/resnet.py:116-118 | Stage i is a non-empty chain of blocks from `num_features[i]` to `num_features[i+1]` whose strides multiply to `strides[i+1]`. The stem feeds stage 0, consecutive stages chain, and the last stage outputs `num_features[len(num_blocks)]`. |
| StagePlan.ClassifierWidth | src/models/resnet.py:119-130 | Without `feature_layer_dim`, `fc2` reads what the last stage outputs exactly when `num_features[len(num_blocks)] == num_features[-1]`, in particular with exactly one more feature width than stages. `post_bn` is as wide as `fc2`'s input. |
| StagePlan.StemPadding | src/models/resnet.py:110 | The stem's padding `k // 2` preserves size up to the stride exactly when k is odd. Then the output is ceil(h / strides[0]). |
| StagePlan.FactoryTablesAgree | src/models/resnet.py:159-220 | For every depth, the generic factories use the same kind of block (basic or bottleneck) and the same block counts as the dilated ones. The block classes themselves differ; only the kind is compared. |
| Text.ReplaceChar | src/log.py:113 | `s.replace(a, b)` for single characters is a character-wise map that keeps the length. |
| Text.ErrToAccRemovesErr | src/log.py:47-48 | After `k.replace('err', 'acc')` no `err` is left in the key. |
| Text.ErrToAccIntroducesAcc | src/log.py:47-51 | A key containing `err` contains `acc` after the rename. |
| Text.ReplaceAbsent | src/log.py:47-48 | A key without `err` is left as it is by the rename. |
| TensorBoard.Tag | src/log.py:112-113 | A tag keeps its length. Every `.` becomes `/`, nothing else changes, and no `.` remains. |
| TensorBoard.TagIdempotent | src/log.py:112-113 | Normalising a normalised tag changes nothing. |
| TensorBoard.TagIdentifies | src/log.py:112-113 | Two tags of equal length normalise alike exactly when they differ only by `.` against `/`. |
| LogParser.AssignLookup | src/log.py:26 | After `d[k] = v`, `k` maps to `v` and every other key to its old value. |
| LogParser.ScanPeriods | src/log.py:37-39 | The loop with its `break` stops at the first period holding the epoch, or leaves `idx` at the last index. |
| LogParser.PeriodIndex | src/log.py:36-40 | With fewer than two bounds, reading `idx` raises UnboundLocalError. Otherwise `idx` is the first period `[bounds[i], bounds[i+1])` holding the epoch, and it holds the epoch exactly when some period does. Otherwise it is `len(bounds) - 2`. |
| LogParser.PeriodOfSortedBounds | src/log.py:36-40 | With sorted bounds, an epoch between the first and last bound lands in its own period. An epoch past the last bound reports the last period. |
| LogParser.MakeHeader | src/log.py:31-40 | `'normal'` reports the given lr. `cos`, `cyclical` and `one_cycle` report `lrs[idx]` and `[bounds[idx], bounds[idx+1])`, with UnboundLocalError or IndexError when the lists are too short. A written header reports `num_imgs / elapsed`, or raises ZeroDivisionError for a zero interval after the period's errors. Any other curve writes no header. |
| LogParser.ReportedRate | src/log.py:31-40 | A successful call that writes a header (`'normal'` or a scheduled curve) reports `num_imgs / (now - since)`, the throughput since the previous call, just before `imgs/s`. The clock interval of such a call is never zero. |
| LogParser.HeaderReportsCurrentPeriod | src/log.py:35-40 | With sorted bounds, one learning rate per period, an epoch inside the schedule and a non-zero clock interval, the header reports the period holding the epoch and that period's learning rate. |
| LogParser.EntryFormat | src/log.py:46-54 | A float entry prints its renamed key, which has no `err`. An error rate x is printed as 1 - x in percent. Other keys are printed unchanged in percent exactly when they contain `acc` or `top`, and in five decimals otherwise. The separator is `\n` for the dict's last entry and `,` otherwise. |
| LogParser.PrintedKeys | src/log.py:44-49 | The keys a dict prints are the renamed keys of its float entries, in dict order, none containing `err`. |
| LogParser.Separators | src/log.py:44-54 | A dict prints one separator per float entry, all commas, except a final newline when the dict's last entry is a float. |
| LogParser.NewlineIffLastIsFloat | src/log.py:52-54 | A dict's segment ends its line exactly when the dict's last entry, counting non-floats, is a float. |
| LogParser.AddMetrics | src/log.py:55-68 | Without all four confusion counts the dict is unchanged. Existing keys keep their places. |
| LogParser.AddMetricsLookup | src/log.py:55-68 | With all of `tp`, `tn`, `fp`, `fn`, the keys `precision`, `recall` and `f1_score` map to the computed numpy arrays. Every other key, and every key without the counts, keeps its value. |
| LogParser.WithMacroF1 | src/log.py:25-26 | A label without a prediction raises KeyError for `f1_score_pred`. Without a label the dict is unchanged, and existing keys keep their places. |
| LogParser.MacroF1Lookup | src/log.py:25-26 | With a label, `macro_f1_score` holds the F1 of this dict's own label and prediction, each known by its contents, and every other key keeps its value. |
| LogParser.MacroF1All | src/log.py:23-26 | The first pass succeeds exactly when every dict passes, and each dict is replaced by its updated version. |
| LogParser.FirstPassDict | src/log.py:23-26 | After the first loop, including one that raises, dict i holds its macro-F1 update exactly when it and every earlier dict passed; otherwise it is untouched. |
| LogParser.FirstPassAgrees | src/log.py:23-26 | When every dict passes, the dicts the loop leaves are those `MacroF1All` returns. |
| LogParser.MetricPassDict | src/log.py:41-68 | When the second loop raises, dict i holds its metrics exactly when the counts of it and of every earlier dict could be summed; otherwise it is untouched. |
| LogParser.MetricLines | src/log.py:69-77 | The metric lines name `precision`, `recall` and `f1_score` in that order when the counts are present, and nothing otherwise. |
| LogParser.TagSegment | src/log.py:41-77 | A tag's segment holds exactly one label (its tag) and the metric lines iff the counts are present. |
| LogParser.ParseLogDict | src/log.py:22-79 | The call succeeds exactly when the first loop and the header do and every dict with all four counts holds them as numpy arrays. The macro-F1 KeyError comes first and leaves the dicts as the first loop left them. A header error leaves every macro-F1 update in place and adds no metric. A count that is not an array raises AttributeError in the second loop, after the earlier dicts got their metrics. One dict per tag is kept, with the same tags in the same order. `self.t` moves to the current time only on success. |
| LogParser.DictsAfterCall | src/log.py:22-78 | After any call, raising or not, dict i is untouched when it or an earlier dict has a label without a prediction. Otherwise it holds its macro-F1 update. It also holds its metrics exactly when the first loop and the header succeeded and the counts of it and of every earlier dict could be summed. |
| LogParser.OneSegmentPerTag | src/log.py:41-42 | The message has one `"  {tag} : "` segment per tag, in the dicts' order. |
| LogParser.DictMutation | src/log.py:22-68 | After the call, a metric key holds an array iff the counts are present. `macro_f1_score` holds the F1 iff a label is present. Every other key, including every `err` key, keeps its value. |
| LogParser.DictOrder | src/log.py:25-68 | Existing keys keep their places, and keys stay distinct. |
| LogParser.MetricLinesIffCounts | src/log.py:55-77 | A tag's metric lines appear, in the order precision, recall, F1, exactly when all four confusion counts are in its dict. |

## Left out

- Forward passes (`SE.forward`, the blocks' `forward`, `LevelAttentionModel.forward`, `ResNet.forward`): floating-point tensor math done by PyTorch. Only the shapes they rely on are modelled.
- Weight initialisation in the constructor and the Kaiming-initialised slice in `warp_dict_fn`: random values. Only shapes are modelled.
- Checkpoint loading (`torch.load`, `get_model_file`, `model_zoo.load_url`, the strict/non-strict `load_state_dict` fallback): file and network I/O. `pretrained=False` is the modelled path. `model_urls` is not defined in `src/models/resnet.py`.
- The parts of `src/models/resnet.py`'s constructor that use names absent from that file: `use_avgpool` (:107), `shape` (:127), and `conv`, `linear` and the block classes from the `layers` module, which is not part of this model. The model keeps the stage plan only, not whether the constructor runs.
- Norm layers, activations, dropout and `Flatten`: they keep shapes. The classifier's `BatchNorm1d` widths are recorded, and so is the ValueError `nn.Dropout` raises for a probability outside [0, 1].
- The constructor's `input_shape` argument is never read. The feature-size lemma uses its default of 224.
- DilatedBlocks.NewSe: the RuntimeError for a negative squeezed width assumes `layers.linear` builds an `nn.Linear`, which rejects a negative size; the `layers` module is not part of this model. Of the `se_kwargs` the factories pass through to `SE(planes, **se_kwargs)`, only `reduction_ratio` is modelled. `pool_fn` affects no width. An unknown keyword, which raises TypeError in `SE.__init__`, is not modelled.
- Float formatting (`{:.3e}`, `{:.2f}`, `{:.5f}`, `{:.3%}`, `np.array2string`): a message piece records the value and the format instead of the text.
- LogParser.AddMetrics: the precision/recall/F1 arrays (with their `1e-8` terms) are recorded as arrays, not computed: each is the same placeholder array `MetricArray`, whose elements are not modelled.
- LogParser.WithMacroF1: sklearn's `f1_score` is a parameter function over values known by their contents (`Array(id)`, `Other(id)`). Its own errors (mismatched label and prediction lengths) are not modelled.
- LogParser.ParseLogDict: the clock readings (`self.t` before the call and `time()` during it) are inputs. A missing `config.train` key (KeyError) is not modelled; the config is a record with all three fields. The four counts, when they are numpy arrays of rank at least 1, are assumed to have shapes that broadcast together; a broadcasting ValueError in `tp + fp` is not modelled. Any count that is not such an array raises the modelled AttributeError, though a numpy scalar or 0-d array actually raises numpy's AxisError from `.sum(0)`.
- `TensorBoardX`'s writers, directory creation, run/config files, images, histograms, `write_log`, `write_err`, `write_net` and `log_net_params`: file and TensorFlow I/O. Only the tag normalisation they share is modelled.
- The unused `conv3x3` helper and `Bottleneck._sum_each`: never called by the modelled code.

## Findings

| source | as written | input that shows it | evidently intended | confidence | as-written member | corrected member |
|---|---|---|---|---|---|---|
| src/models/gluoncv_resnet_v7.py:216 | The attention gate after layer1 is `LevelAttentionModel(64, 64)`, reading 64 channels. | Any bottleneck factory (`resnet50`, `resnet101`, `resnet152`): layer1 outputs `64 * 4 = 256` channels. | The gate reads layer1's output width, `64 * block.expansion`. | not executed | DilatedResNet.AttentionAsWrittenMismatch | DilatedResNet.AttentionFitsLayer1 |

=== FILE: checkpoint.dfy ===
/** `warp_dict_fn`: adapts an ImageNet checkpoint to the 4-channel dilated
    ResNet. A checkpoint is modelled as a map from parameter name to tensor
    shape; tensor contents (the Kaiming-initialised slice) are not modelled. */
module Checkpoint {
  import opened Python
  import Convolution
  import DilatedResNet

  type Shape = seq<nat>

  /** A state dict: parameter name to tensor shape. */
  type StateDict = map<string, Shape>

  const StemWeight: string := "conv1.weight"
  const FcWeight: string := "fc.weight"
  const FcBias: string := "fc.bias"

  /** Shape of the slice appended to the stem weight along dimension 1. */
  const ExtraSlice: Shape := [64, 1, 7, 7]

  /** `torch.cat([a, b], dim)` on shapes: both of the same rank, equal in
      every dimension but `dim`, which adds up. PyTorch raises IndexError for
      a `dim` out of range and RuntimeError for a rank or size mismatch; both
      are the one error `ShapeMismatch` here. */
  function Cat(a: Shape, b: Shape, dim: nat): (r: Result<Shape>)
    ensures r.Ok? <==> (|a| == |b| && dim < |a|
                        && forall i :: 0 <= i < |a| && i != dim ==> a[i] == b[i])
    ensures r.Err? ==> r.error == ShapeMismatch
    ensures r.Ok? ==> (|r.value| == |a| && r.value[dim] == a[dim] + b[dim]
                       && forall i :: 0 <= i < |a| && i != dim ==> r.value[i] == a[i] == b[i])
  {
    if |a| == |b| && dim < |a| && forall i :: 0 <= i < |a| && i != dim ==> a[i] == b[i]
    then Ok(a[dim := a[dim] + b[dim]])
    else Err(ShapeMismatch)
  }

  /** What `warp_dict_fn(d)` leaves behind: the dict it returns or the
      exception it raises, and the caller's dict `d`, which it changes in
      place also when it then raises. */
  datatype Warped = Warped(outcome: Result<StateDict>, dict: StateDict)

  /** The stem weight widened by the extra input channel, when it can be. */
  predicate Widened(d: StateDict)
  {
    StemWeight in d && Cat(d[StemWeight], ExtraSlice, 1).Ok?
  }

  /** `warp_dict_fn(d)`: widens the stem weight by one input channel and pops
      the classifier's weight and bias; nothing else changes. Each missing
      key raises KeyError at the point it is read or popped, after the steps
      before it have already changed the dict: a missing `fc.weight` leaves
      the widened stem, a missing `fc.bias` also leaves `fc.weight` popped. */
  function Warp(d: StateDict): (r: Warped)
    ensures StemWeight !in d ==> r == Warped(Err(KeyError(StemWeight)), d)
    ensures StemWeight in d && !Widened(d) ==> r == Warped(Err(ShapeMismatch), d)
    ensures Widened(d) && FcWeight !in d ==>
              r.outcome == Err(KeyError(FcWeight)) && r.dict.Keys == d.Keys
    ensures Widened(d) && FcWeight in d && FcBias !in d ==>
              r.outcome == Err(KeyError(FcBias)) && r.dict.Keys == d.Keys - {FcWeight}
    ensures r.outcome.Ok? <==> Widened(d) && FcWeight in d && FcBias in d
    ensures r.outcome.Ok? ==> r.outcome.value == r.dict
                              && r.dict.Keys == d.Keys - {FcWeight, FcBias}
    ensures Widened(d) ==> (StemWeight in r.dict
                            && |r.dict[StemWeight]| == |d[StemWeight]| == 4
                            && r.dict[StemWeight][1] == d[StemWeight][1] + 1
                            && forall i :: 0 <= i < 4 && i != 1 ==> r.dict[StemWeight][i] == d[StemWeight][i])
    ensures forall k :: k in r.dict && k != StemWeight ==> k in d && r.dict[k] == d[k]
  {
    if StemWeight !in d then Warped(Err(KeyError(StemWeight)), d)
    else
      match Cat(d[StemWeight], ExtraSlice, 1)
      case Err(e) => Warped(Err(e), d)
      case Ok(w) =>
        var d1 := d[StemWeight := w];
        if FcWeight !in d1 then Warped(Err(KeyError(FcWeight)), d1)
        else
          var d2 := d1 - {FcWeight};
          if FcBias !in d2 then Warped(Err(KeyError(FcBias)), d2)
          else
            var d3 := d2 - {FcBias};
            Warped(Ok(d3), d3)
  }

  /** An ImageNet checkpoint without `fc.bias`: the call raises KeyError, and
      the caller's dict is left with the widened stem and without `fc.weight`. */
  lemma WarpWithoutBias()
    ensures var d := map[StemWeight := [64, 3, 7, 7], FcWeight := [1000, 512]];
      Warp(d) == Warped(Err(KeyError(FcBias)), map[StemWeight := [64, 4, 7, 7]])
  {
    var d := map[StemWeight := [64, 3, 7, 7], FcWeight := [1000, 512]];
    assert StemWeight != FcWeight;
    var stem: Shape := [64, 3, 7, 7];
    assert d[StemWeight] == stem;
    assert forall i :: 0 <= i < 4 && i != 1 ==> stem[i] == ExtraSlice[i];
    assert stem[1 := stem[1] + ExtraSlice[1]] == [64, 4, 7, 7];
    assert Cat(d[StemWeight], ExtraSlice, 1) == Ok([64, 4, 7, 7]);
    assert d[StemWeight := [64, 4, 7, 7]] - {FcWeight} == map[StemWeight := [64, 4, 7, 7]];
  }

  /** The stem weight of an ImageNet checkpoint (64 x 3 x 7 x 7) becomes the
      weight shape of the model's 4-channel 7x7 stem convolution. */
  lemma WarpFitsStem(d: StateDict)
    requires StemWeight in d && d[StemWeight] == [64, 3, 7, 7]
    requires FcWeight in d && FcBias in d
    ensures Warp(d).outcome.Ok?
    ensures Warp(d).dict[StemWeight] == Convolution.WeightShape(DilatedResNet.Stem(false)[0])
  {
    assert Cat(d[StemWeight], ExtraSlice, 1).Ok?;
  }

  /** The rewrite cannot be applied twice: the classifier keys are gone, yet
      the second call has widened the stem once more before it raises. */
  lemma WarpNotReapplicable(d: StateDict)
    requires Warp(d).outcome.Ok?
    ensures Warp(Warp(d).dict).outcome == Err(KeyError(FcWeight))
    ensures Warp(Warp(d).dict).dict[StemWeight][1] == d[StemWeight][1] + 2
  {
    var d' := Warp(d).dict;
    var w := d'[StemWeight];
    assert Cat(w, ExtraSlice, 1).Ok? by {
      assert Cat(d[StemWeight], ExtraSlice, 1).Ok?;
    }
  }
}

=== FILE: convolution.dfy ===
/** Geometry shared by both ResNet builders: channel counts of `Conv2d` and
    `Linear` layers, the sliding window of a convolution or pooling layer, and
    the spatial size a window produces along one axis. */
module Convolution {

  type Pos = n: int | n > 0 witness 1

  /** Kernel, stride, padding and dilation of a `Conv2d` or `MaxPool2d` along one axis. */
  datatype Window = Window(kernel: Pos, stride: Pos, padding: nat, dilation: Pos)

  /** A square `Conv2d(inCh, outCh, ...)`. */
  datatype Conv = Conv(inCh: nat, outCh: nat, window: Window)

  /** `Linear(inF, outF)`. */
  datatype Linear = Linear(inF: nat, outF: nat)

  /** A 1x1 convolution with the given stride and no padding. */
  function Pointwise(inCh: nat, outCh: nat, stride: Pos): Conv
  {
    Conv(inCh, outCh, Window(1, stride, 0, 1))
  }

  /** Shape `out x in x k x k` of a square `Conv2d`'s weight. */
  function WeightShape(c: Conv): seq<nat>
  {
    [c.outCh, c.inCh, c.window.kernel, c.window.kernel]
  }

  /** Output length along one axis, floor((h + 2p - d(k-1) - 1) / s) + 1.
      Dafny's `/` agrees with Python's floor division for a positive divisor. */
  function OutSize(w: Window, h: int): int
  {
    (h + 2 * w.padding - w.dilation * (w.kernel - 1) - 1) / w.stride + 1
  }

  /** The padding that makes the output length ceil(h / stride). */
  predicate SamePadded(w: Window)
  {
    2 * w.padding == w.dilation * (w.kernel - 1)
  }

  function CeilDiv(h: int, s: Pos): int
  {
    (h + s - 1) / s
  }

  /** Euclidean division is determined by quotient and remainder. */
  lemma DivUnique(x: int, s: Pos, q: int, r: int)
    requires x == q * s + r && 0 <= r < s
    ensures x / s == q
  {
    var q', r' := x / s, x % s;
    assert x == q' * s + r';
    if q' < q {
      assert (q - q') * s >= s by { MulGrows(q - q', s); }
      assert false;
    } else if q' > q {
      assert (q' - q) * s >= s by { MulGrows(q' - q, s); }
      assert false;
    }
  }

  lemma MulGrows(a: int, s: Pos)
    requires a >= 1
    ensures a * s >= s
  {
    assert a * s == (a - 1) * s + s;
    MulNonNeg(a - 1, s);
  }

  lemma MulNonNeg(a: int, b: int)
    requires a >= 0 && b >= 0
    ensures a * b >= 0
  {
  }

  /** CeilDiv(h, s) is the least c with c * s >= h. */
  lemma CeilDivBounds(h: int, s: Pos)
    requires h >= 0
    ensures CeilDiv(h, s) >= 0
    ensures CeilDiv(h, s) * s >= h
    ensures (CeilDiv(h, s) - 1) * s < h
  {
    var x := h + s - 1;
    var q, r := x / s, x % s;
    assert x == q * s + r && 0 <= r < s;
    assert CeilDiv(h, s) == q;
    if q < 0 {
      MulGrows(-q, s);
      assert false;
    }
    assert q * s == x - r;
    assert (q - 1) * s == x - r - s;
  }

  /** A window with the same padding shrinks h to ceil(h / stride). */
  lemma SamePaddedOutSize(w: Window, h: int)
    requires SamePadded(w)
    ensures OutSize(w, h) == CeilDiv(h, w.stride)
  {
    var s := w.stride;
    assert OutSize(w, h) == (h - 1) / s + 1;
    var q, r := (h - 1) / s, (h - 1) % s;
    DivUnique(h - 1 + s, s, q + 1, r);
  }

  lemma CeilDivByOne(h: int)
    ensures CeilDiv(h, 1) == h
  {
  }

  /** Two successive ceil-divisions compose into one by the product. */
  lemma CeilDivCompose(h: int, a: Pos, b: Pos)
    requires h >= 0
    ensures a * b > 0
    ensures CeilDiv(CeilDiv(h, a), b) == CeilDiv(h, a * b)
  {
    MulGrows(a, b);
    var ab: Pos := a * b;
    CeilDivBounds(h, a);
    var x := CeilDiv(h, a);
    CeilDivBounds(x, b);
    var y := CeilDiv(x, b);
    // y is the least value with y * (a * b) >= h
    var yb, pb := y * b, (y - 1) * b;
    MulAssoc(y, b, a);
    MulAssoc(y - 1, b, a);
    MulMonotone(x, yb, a);
    MulMonotone(pb, x - 1, a);
    CeilDivUnique(h, ab, y);
  }

  lemma MulAssoc(u: int, b: int, a: int)
    ensures u * (a * b) == (u * b) * a
  {
  }

  lemma MulMonotone(u: int, v: int, a: Pos)
    requires u <= v
    ensures u * a <= v * a
  {
    MulNonNeg(v - u, a);
    assert v * a - u * a == (v - u) * a;
  }

  lemma CeilDivUnique(h: int, s: Pos, c: int)
    requires h >= 0
    requires c * s >= h && (c - 1) * s < h
    ensures CeilDiv(h, s) == c
  {
    CeilDivBounds(h, s);
    var d := CeilDiv(h, s);
    if d < c {
      MulMonotone(d, c - 1, s);
      assert false;
    } else if d > c {
      MulMonotone(c, d - 1, s);
      assert false;
    }
  }

  /** Spatial length after applying a stack of convolutions in order. */
  function ThroughConvs(cs: seq<Conv>, h: int): int
    decreases |cs|
  {
    if |cs| == 0 then h else ThroughConvs(cs[1..], OutSize(cs[0].window, h))
  }

  function StrideProduct(cs: seq<Conv>): (p: Pos)
    decreases |cs|
  {
    if |cs| == 0 then 1
    else
      MulGrows(StrideProduct(cs[1..]), cs[0].window.stride);
      StrideProduct(cs[1..]) * cs[0].window.stride
  }

  predicate AllSamePadded(cs: seq<Conv>)
  {
    forall i :: 0 <= i < |cs| ==> SamePadded(cs[i].window)
  }

  /** Each convolution consumes the channels the one before it produces. */
  predicate Chained(cs: seq<Conv>)
  {
    forall i :: 0 < i < |cs| ==> cs[i].inCh == cs[i - 1].outCh
  }

  /** A same-padded stack shrinks h to ceil(h / product of its strides). */
  lemma {:induction false} SamePaddedStack(cs: seq<Conv>, h: int)
    requires h >= 0
    requires AllSamePadded(cs)
    ensures ThroughConvs(cs, h) == CeilDiv(h, StrideProduct(cs))
    decreases |cs|
  {
    if |cs| == 0 {
      CeilDivByOne(h);
    } else {
      var s := cs[0].window.stride;
      SamePaddedOutSize(cs[0].window, h);
      var h' := OutSize(cs[0].window, h);
      CeilDivBounds(h, s);
      SamePaddedStack(cs[1..], h');
      CeilDivCompose(h, s, StrideProduct(cs[1..]));
      assert s * StrideProduct(cs[1..]) == StrideProduct(cs);
    }
  }
}

=== FILE: dilated_blocks.dfy ===
/** The residual blocks of the dilated ResNet (`BasicBlock`, `Bottleneck`) and
    the squeeze-and-excitation gate `SE` each of them ends with, reduced to the
    widths, strides and dilations their constructors choose. */
module DilatedBlocks {
  import opened Python
  import opened Convolution

  datatype BlockKind = BasicBlock | Bottleneck

  /** The class attribute `expansion`: output width over `planes`. */
  function Expansion(kind: BlockKind): Pos
  {
    match kind
    case BasicBlock => 1
    case Bottleneck => 4
  }

  /** The keyword arguments a factory forwards to `SE`; only
      `reduction_ratio` affects a width (`pool_fn` does not). */
  datatype SeArgs = SeArgs(reductionRatio: Option<int>)

  /** The `block` argument of `ResNet`: a block class, possibly wrapped in
      `partial(cls, se_kwargs=...)`. A bare class behaves as `se_kwargs=None`. */
  datatype BlockCtor = BlockCtor(kind: BlockKind, seKwargs: Option<SeArgs>)

  const DefaultReductionRatio: int := 16

  /** Reduction ratio an `SE` receives: `SE(n)` or `SE(n, **se_kwargs)`. */
  function SeRatio(seKwargs: Option<SeArgs>): int
  {
    match seKwargs
    case None => DefaultReductionRatio
    case Some(args) =>
      match args.reductionRatio
      case None => DefaultReductionRatio
      case Some(r) => r
  }

  /** `fc1` maps `channels -> squeezed`, `fc2` maps `squeezed -> channels`. */
  datatype SeSpec = SeSpec(channels: nat, squeezed: nat)

  /** The ratios `SE(numChannels, reduction_ratio=ratio)` rejects: zero, and a
      negative ratio, whose floor quotient of positive channels is negative. */
  predicate SeRejects(numChannels: nat, ratio: int)
  {
    ratio == 0 || (ratio < 0 && numChannels > 0)
  }

  /** The exception a rejected ratio raises. */
  function SeError(ratio: int): Error
  {
    if ratio == 0 then ZeroDivisionError else NegativeDimension
  }

  /** `SE(num_channels, reduction_ratio=ratio)`: squeezes to
      `num_channels // ratio` and restores `num_channels`. A zero ratio
      raises ZeroDivisionError; a negative squeezed width makes the first
      linear layer raise. */
  function NewSe(numChannels: nat, ratio: int): (r: Result<SeSpec>)
    ensures r.Err? <==> SeRejects(numChannels, ratio)
    ensures r.Err? ==> r.error == SeError(ratio)
    ensures r.Ok? ==> r.value.channels == numChannels
    ensures r.Ok? && ratio > 0 ==> r.value.squeezed * ratio <= numChannels < (r.value.squeezed + 1) * ratio
    ensures r.Ok? && ratio < 0 ==> r.value.squeezed == 0 == numChannels
  {
    if ratio == 0 then Err(ZeroDivisionError)
    else
      var q := FloorDiv(numChannels, ratio);
      FloorDivSign(numChannels, ratio);
      if q < 0 then Err(NegativeDimension)
      else Ok(SeSpec(numChannels, q))
  }

  /** The floor quotient of a width: negative exactly for a negative ratio
      and a positive width, zero for a zero width, and otherwise the largest
      multiple of the ratio not above the width. */
  lemma FloorDivSign(n: nat, ratio: int)
    requires ratio != 0
    ensures FloorDiv(n, ratio) < 0 <==> ratio < 0 && n > 0
    ensures ratio < 0 && n == 0 ==> FloorDiv(n, ratio) == 0
    ensures ratio > 0 ==> FloorDiv(n, ratio) * ratio <= n < (FloorDiv(n, ratio) + 1) * ratio
  {
    if ratio > 0 {
      QuotientBounds(n, ratio);
    } else {
      QuotientSign(-(n as int), -ratio);
    }
  }

  lemma QuotientBounds(n: nat, k: int)
    requires k > 0
    ensures n / k >= 0
    ensures (n / k) * k <= n < (n / k + 1) * k
  {
    var q := n / k;
    assert q * k + n % k == n;
    assert (q + 1) * k == q * k + k;
    if q < 0 {
      MulNegative(q, k);
    }
  }

  lemma QuotientSign(m: int, k: int)
    requires m <= 0 && k > 0
    ensures m / k < 0 <==> m < 0
    ensures m == 0 ==> m / k == 0
  {
    var q := m / k;
    assert q * k + m % k == m;
    if q >= 0 {
      assert q * k >= 0;
    } else {
      MulNegative(q, k);
    }
  }

  lemma MulNegative(q: int, k: int)
    requires q < 0 && k > 0
    ensures q * k <= -k
  {
    assert q * k == -((-q) * k);
    assert (-q) * k >= k;
  }

  /** What a block constructor records: its arguments and the `SE` it built. */
  datatype BlockSpec = BlockSpec(
    kind: BlockKind,
    inplanes: nat,
    planes: nat,
    stride: Pos,
    dilation: Pos,
    previousDilation: Pos,
    downsample: Option<Conv>,
    se: SeSpec)

  /** Channels of the block's main path as its constructor wires them:
      `BasicBlock` ends in `planes`, `Bottleneck` in `planes * 4`. */
  function OutWidth(b: BlockSpec): nat
  {
    match b.kind
    case BasicBlock => b.planes
    case Bottleneck => b.planes * 4
  }

  /** `BasicBlock(...)` or `Bottleneck(...)`; only the `SE` can fail, as
      `SE(planes * expansion, ratio)` does. */
  function NewBlock(ctor: BlockCtor, inplanes: nat, planes: nat, stride: Pos, dilation: Pos,
                    downsample: Option<Conv>, previousDilation: Pos): (r: Result<BlockSpec>)
    ensures r.Err? <==> SeRejects(planes * Expansion(ctor.kind), SeRatio(ctor.seKwargs))
    ensures r.Err? ==> r.error == SeError(SeRatio(ctor.seKwargs))
    ensures r.Ok? ==> (r.value.kind == ctor.kind && r.value.inplanes == inplanes
                       && r.value.planes == planes && r.value.stride == stride
                       && r.value.dilation == dilation && r.value.previousDilation == previousDilation
                       && r.value.downsample == downsample)
    ensures r.Ok? ==> r.value.se.channels == OutWidth(r.value) == planes * Expansion(ctor.kind)
    ensures r.Ok? ==> NewSe(OutWidth(r.value), SeRatio(ctor.seKwargs)) == Ok(r.value.se)
  {
    var width := match ctor.kind case BasicBlock => planes case Bottleneck => planes * 4;
    var se :- NewSe(width, SeRatio(ctor.seKwargs));
    Ok(BlockSpec(ctor.kind, inplanes, planes, stride, dilation, previousDilation, downsample, se))
  }

  /** The block's main-path convolutions in order. `BasicBlock` pads its
      second convolution by `previous_dilation`; `Bottleneck` ignores it. */
  function Convs(b: BlockSpec): seq<Conv>
  {
    match b.kind
    case BasicBlock =>
      [ Conv(b.inplanes, b.planes, Window(3, b.stride, b.dilation, b.dilation)),
        Conv(b.planes, b.planes, Window(3, 1, b.previousDilation, b.previousDilation)) ]
    case Bottleneck =>
      [ Pointwise(b.inplanes, b.planes, 1),
        Conv(b.planes, b.planes, Window(3, b.stride, b.dilation, b.dilation)),
        Pointwise(b.planes, b.planes * 4, 1) ]
  }

  /** Weighted layers on a block's main path. */
  function ConvsPerBlock(kind: BlockKind): nat
  {
    match kind
    case BasicBlock => 2
    case Bottleneck => 3
  }

  /** The main path is a well-formed stack: it starts from `inplanes`, each
      convolution feeds the next, it ends at `planes * expansion`, it keeps
      the spatial size up to the block's stride, and it holds the number of
      weighted layers the depth names count. */
  lemma BlockGeometry(b: BlockSpec)
    ensures |Convs(b)| == ConvsPerBlock(b.kind)
    ensures Convs(b)[0].inCh == b.inplanes
    ensures Chained(Convs(b))
    ensures Convs(b)[|Convs(b)| - 1].outCh == OutWidth(b) == b.planes * Expansion(b.kind)
    ensures AllSamePadded(Convs(b))
    ensures StrideProduct(Convs(b)) == b.stride
  {
    var cs := Convs(b);
    match b.kind
    case BasicBlock =>
      assert StrideProduct(cs[1..][1..]) == 1;
      assert StrideProduct(cs[1..]) == 1;
    case Bottleneck =>
      assert StrideProduct(cs[1..][1..][1..]) == 1;
      assert StrideProduct(cs[1..][1..]) == 1;
      assert StrideProduct(cs[1..]) == b.stride;
  }

  /** Spatial length after the block's main path. */
  function BlockOutSize(b: BlockSpec, h: int): int
  {
    ThroughConvs(Convs(b), h)
  }

  /** The shortcut added to the main path (`out += residual`) has the main
      path's channels and spatial size: either the identity, which needs
      `inplanes == OutWidth` and stride 1, or a 1x1 projection
      `inplanes -> OutWidth` with the block's stride. */
  predicate ResidualFits(b: BlockSpec)
  {
    match b.downsample
    case None => b.inplanes == OutWidth(b) && b.stride == 1
    case Some(p) => p == Pointwise(b.inplanes, OutWidth(b), b.stride)
  }

  /** Spatial length of the shortcut branch. */
  function ShortcutSize(b: BlockSpec, h: int): int
  {
    match b.downsample
    case None => h
    case Some(p) => OutSize(p.window, h)
  }

  /** When the shortcut fits, both branches of `out += residual` agree in
      width and spatial size for every input size, which is ceil(h / stride). */
  lemma ResidualShapesAgree(b: BlockSpec, h: nat)
    requires ResidualFits(b)
    ensures b.downsample.Some? ==> b.downsample.value.outCh == OutWidth(b)
    ensures b.downsample.None? ==> b.inplanes == OutWidth(b)
    ensures ShortcutSize(b, h) == BlockOutSize(b, h) == CeilDiv(h, b.stride)
  {
    BlockGeometry(b);
    SamePaddedStack(Convs(b), h);
    match b.downsample
    case None =>
      CeilDivByOne(h);
    case Some(p) =>
      SamePaddedOutSize(p.window, h);
  }
}

=== FILE: dilated_resnet.dfy ===
/** The architecture plan of the dilated ResNet: `ResNet.__init__` threads
    `self.inplanes` through the stem and four calls of `_make_layer`, adds the
    level-attention gate after the first stage and a two-layer classifier after
    the last, and the factories `resnet18` ... `resnet152` fix the block class
    and the number of blocks per stage. Everything here is the integer
    bookkeeping of that construction; no tensor is computed. */
module DilatedResNet {
  import opened Python
  import opened Convolution
  import opened DilatedBlocks

  /** `_make_layer`'s result: the blocks of one stage and `self.inplanes` on exit. */
  datatype Layer = Layer(blocks: seq<BlockSpec>, inplanes: nat)

  /** What `_make_layer(block, planes, count, stride, dilation)` promises when
      called with `self.inplanes == inplanes` and a supported dilation:
      `max(1, count)` blocks; the first takes `inplanes` with the layer's
      stride, dilation 1 (2 when the layer's dilation is 4), previous
      dilation equal to the layer's, and a 1x1 projection exactly when the
      stride is not 1 or the width changes; every later block takes
      `planes * expansion` channels, stride 1, no projection, and the
      layer's dilation twice. */
  predicate LayerShape(bs: seq<BlockSpec>, kind: BlockKind, inplanes: nat, planes: nat,
                       count: int, stride: Pos, dilation: Pos)
  {
    var width := planes * Expansion(kind);
    && |bs| == 1 + RangeLen(1, count)
    && (forall i :: 0 <= i < |bs| ==> bs[i].kind == kind && bs[i].planes == planes)
    && bs[0].inplanes == inplanes
    && bs[0].stride == stride
    && bs[0].dilation == (if dilation == 4 then 2 else 1)
    && bs[0].previousDilation == dilation
    && bs[0].downsample == (if stride != 1 || inplanes != width
                            then Some(Pointwise(inplanes, width, stride)) else None)
    && (forall i :: 1 <= i < |bs| ==>
          && bs[i].inplanes == width
          && bs[i].stride == 1
          && bs[i].downsample == None
          && bs[i].dilation == dilation
          && bs[i].previousDilation == dilation)
  }

  /** Every block of a stage ends in the gate `SE(width, ratio)`. */
  predicate LayerGates(bs: seq<BlockSpec>, width: nat, ratio: int)
  {
    forall i :: 0 <= i < |bs| ==> NewSe(width, ratio) == Ok(bs[i].se)
  }

  /** `ResNet._make_layer`. Dilations other than 1, 2 and 4 raise before any
      block is built; otherwise only the blocks' `SE` can fail. */
  function MakeLayer(ctor: BlockCtor, inplanes: nat, planes: nat, count: int,
                     stride: Pos, dilation: int): (r: Result<Layer>)
    ensures dilation !in {1, 2, 4} ==> r == Err(UnknownDilation(dilation))
    ensures dilation in {1, 2, 4} ==>
              (r.Err? <==> SeRejects(planes * Expansion(ctor.kind), SeRatio(ctor.seKwargs)))
    ensures dilation in {1, 2, 4} && r.Err? ==> r.error == SeError(SeRatio(ctor.seKwargs))
    ensures r.Ok? ==> 0 < dilation
    ensures r.Ok? ==> LayerShape(r.value.blocks, ctor.kind, inplanes, planes, count, stride, dilation)
    ensures r.Ok? ==> r.value.inplanes == planes * Expansion(ctor.kind)
    ensures r.Ok? ==> LayerGates(r.value.blocks, planes * Expansion(ctor.kind), SeRatio(ctor.seKwargs))
  {
    var width := planes * Expansion(ctor.kind);
    var downsample := if stride != 1 || inplanes != width
                      then Some(Pointwise(inplanes, width, stride)) else None;
    if dilation != 1 && dilation != 2 && dilation != 4 then Err(UnknownDilation(dilation))
    else
      var first :- NewBlock(ctor, inplanes, planes, stride, if dilation == 4 then 2 else 1,
                            downsample, dilation);
      if count <= 1 then Ok(Layer([first], width))
      else
        // the later blocks use the same SE ratio as the first, so they cannot fail
        var later := NewBlock(ctor, width, planes, 1, dilation, None, dilation).value;
        Ok(Layer([first] + seq(count - 1, _ => later), width))
  }

  // ---------------------------------------------------------------------
  // Channel chain across blocks

  /** Blocks read the channels the stage before them produced, starting from `w`. */
  predicate BlocksChained(bs: seq<BlockSpec>, w: nat)
  {
    && (|bs| > 0 ==> bs[0].inplanes == w)
    && (forall i :: 0 < i < |bs| ==> bs[i].inplanes == OutWidth(bs[i - 1]))
  }

  /** Channels leaving a run of blocks entered with `w` channels. */
  function EndWidth(bs: seq<BlockSpec>, w: nat): nat
  {
    if |bs| == 0 then w else OutWidth(bs[|bs| - 1])
  }

  lemma ChainAppend(a: seq<BlockSpec>, b: seq<BlockSpec>, w: nat)
    requires BlocksChained(a, w)
    requires BlocksChained(b, EndWidth(a, w))
    ensures BlocksChained(a + b, w)
    ensures EndWidth(a + b, w) == EndWidth(b, EndWidth(a, w))
  {
    var ab := a + b;
    forall i | 0 < i < |ab|
      ensures ab[i].inplanes == OutWidth(ab[i - 1])
    {
      if i < |a| {
        assert ab[i] == a[i] && ab[i - 1] == a[i - 1];
      } else if i == |a| {
        assert ab[i] == b[0] && ab[i - 1] == a[|a| - 1];
      } else {
        assert ab[i] == b[i - |a|] && ab[i - 1] == b[i - |a| - 1];
      }
    }
  }

  /** Inside a stage, each block reads what the previous one wrote, the first
      reads the width the stage was entered with, the stage ends at
      `planes * expansion`, and every residual addition is shape-correct. */
  lemma LayerInvariants(bs: seq<BlockSpec>, kind: BlockKind, inplanes: nat, planes: nat,
                        count: int, stride: Pos, dilation: Pos)
    requires LayerShape(bs, kind, inplanes, planes, count, stride, dilation)
    ensures BlocksChained(bs, inplanes)
    ensures EndWidth(bs, inplanes) == planes * Expansion(kind)
    ensures forall i :: 0 <= i < |bs| ==> ResidualFits(bs[i])
  {
    forall i | 0 <= i < |bs|
      ensures OutWidth(bs[i]) == planes * Expansion(kind)
    {
      BlockGeometry(bs[i]);
    }
  }

  // ---------------------------------------------------------------------
  // Spatial size across blocks

  /** Spatial length after running a sequence of blocks. */
  function ThroughBlocks(bs: seq<BlockSpec>, h: int): int
    decreases |bs|
  {
    if |bs| == 0 then h else ThroughBlocks(bs[1..], BlockOutSize(bs[0], h))
  }

  lemma {:induction false} ThroughBlocksAppend(a: seq<BlockSpec>, b: seq<BlockSpec>, h: int)
    ensures ThroughBlocks(a + b, h) == ThroughBlocks(b, ThroughBlocks(a, h))
    decreases |a|
  {
    if |a| == 0 {
      assert a + b == b;
    } else {
      assert (a + b)[0] == a[0];
      assert (a + b)[1..] == a[1..] + b;
      ThroughBlocksAppend(a[1..], b, BlockOutSize(a[0], h));
    }
  }

  /** Blocks of stride 1 keep the spatial size. */
  lemma {:induction false} UnitStrideBlocks(bs: seq<BlockSpec>, h: nat)
    requires forall i :: 0 <= i < |bs| ==> bs[i].stride == 1
    ensures ThroughBlocks(bs, h) == h
    decreases |bs|
  {
    if |bs| > 0 {
      BlockGeometry(bs[0]);
      SamePaddedStack(Convs(bs[0]), h);
      CeilDivByOne(h);
      UnitStrideBlocks(bs[1..], h);
    }
  }

  /** A stage divides the spatial size by its stride, rounding up. */
  lemma LayerOutSize(bs: seq<BlockSpec>, kind: BlockKind, inplanes: nat, planes: nat,
                     count: int, stride: Pos, dilation: Pos, h: nat)
    requires LayerShape(bs, kind, inplanes, planes, count, stride, dilation)
    ensures ThroughBlocks(bs, h) == CeilDiv(h, stride)
  {
    BlockGeometry(bs[0]);
    SamePaddedStack(Convs(bs[0]), h);
    CeilDivBounds(h, stride);
    var rest := bs[1..];
    assert forall i :: 0 <= i < |rest| ==> rest[i] == bs[i + 1];
    UnitStrideBlocks(rest, CeilDiv(h, stride));
  }

  // ---------------------------------------------------------------------
  // The network

  /** `LevelAttentionModel(num_features_in, feature_size)`: four 3x3 padded
      convolutions to `feature_size` channels and a fifth to one channel. */
  function LevelAttention(numIn: nat, featureSize: nat): seq<Conv>
  {
    var w := Window(3, 1, 1, 1);
    [ Conv(numIn, featureSize, w), Conv(featureSize, featureSize, w),
      Conv(featureSize, featureSize, w), Conv(featureSize, featureSize, w),
      Conv(featureSize, 1, w) ]
  }

  /** The gate as the constructor builds it, whatever the block class:
      `LevelAttentionModel(64, 64)`. */
  function AttentionAsWritten(): seq<Conv>
  {
    LevelAttention(64, 64)
  }

  /** The gate sized for the first stage's actual output, `64 * expansion`:
      the corrected counterpart of `AttentionAsWritten`. */
  function Attention(kind: BlockKind): seq<Conv>
  {
    LevelAttention(64 * Expansion(kind), 64)
  }

  /** The classifier after global max pooling:
      BatchNorm1d(bnIn) -> Linear fc1 -> BatchNorm1d(bnHidden) -> Linear fc2. */
  datatype Classifier = Classifier(bnIn: nat, fc1: Linear, bnHidden: nat, fc2: Linear)

  /** Everything `ResNet.__init__` sizes. `layers` holds the four stages. */
  datatype Net = Net(
    stem: seq<Conv>,
    bn1: nat,
    maxpool: Window,
    layers: seq<seq<BlockSpec>>,
    attention: seq<Conv>,
    classifier: Classifier)

  /** `self.conv1`: three 3x3 convolutions with `deep_base`, else one 7x7;
      both take the 4-channel input. */
  function Stem(deepBase: bool): seq<Conv>
  {
    if deepBase then
      [ Conv(4, 64, Window(3, 2, 1, 1)),
        Conv(64, 64, Window(3, 1, 1, 1)),
        Conv(64, 128, Window(3, 1, 1, 1)) ]
    else
      [ Conv(4, 64, Window(7, 2, 3, 1)) ]
  }

  const MaxPool: Window := Window(3, 2, 1, 1)

  /** All blocks of the four stages in order. */
  function AllBlocks(net: Net): seq<BlockSpec>
    requires |net.layers| == 4
  {
    net.layers[0] + net.layers[1] + net.layers[2] + net.layers[3]
  }

  /** Stride and dilation of stages 3 and 4. */
  function LateStride(dilated: bool): Pos { if dilated then 1 else 2 }
  function Layer3Dilation(dilated: bool): Pos { if dilated then 2 else 1 }
  function Layer4Dilation(dilated: bool): Pos { if dilated then 4 else 1 }

  /** `ResNet(block, layers, num_classes, dilated, dropout, deep_base)`.
      Reading a missing `layers[i]` raises IndexError; a zero or negative SE
      ratio makes the first block's `SE` raise while the first stage is
      built; the classifier, built last, raises ValueError in its first
      `nn.Dropout` when `dropout` lies outside [0, 1], and its last linear
      layer rejects a negative `num_classes`. The attention gate is the one written,
      `LevelAttentionModel(64, 64)` (see `AttentionAsWrittenMismatch`). */
  function Build(ctor: BlockCtor, layers: seq<int>, numClasses: int, dilated: bool,
                 dropout: real, deepBase: bool): (r: Result<Net>)
    ensures r.Ok? <==> |layers| >= 4 && SeRatio(ctor.seKwargs) > 0 && 0.0 <= dropout <= 1.0
                       && numClasses >= 0
    ensures r.Err? ==> r.error == (if |layers| >= 1 && SeRatio(ctor.seKwargs) <= 0
                                   then SeError(SeRatio(ctor.seKwargs))
                                   else if |layers| < 4 then IndexError
                                   else if dropout < 0.0 || dropout > 1.0 then ValueError
                                   else NegativeDimension)
    ensures r.Ok? ==> |r.value.layers| == 4
    ensures r.Ok? ==> r.value.bn1 == (if deepBase then 128 else 64)
    ensures r.Ok? ==>
      var e := Expansion(ctor.kind);
      var ls := r.value.layers;
      && LayerShape(ls[0], ctor.kind, r.value.bn1, 64, layers[0], 1, 1)
      && LayerShape(ls[1], ctor.kind, 64 * e, 128, layers[1], 2, 1)
      && LayerShape(ls[2], ctor.kind, 128 * e, 256, layers[2], LateStride(dilated), Layer3Dilation(dilated))
      && LayerShape(ls[3], ctor.kind, 256 * e, 512, layers[3], LateStride(dilated), Layer4Dilation(dilated))
    ensures r.Ok? ==>
      var e, ratio := Expansion(ctor.kind), SeRatio(ctor.seKwargs);
      var ls := r.value.layers;
      && LayerGates(ls[0], 64 * e, ratio)
      && LayerGates(ls[1], 128 * e, ratio)
      && LayerGates(ls[2], 256 * e, ratio)
      && LayerGates(ls[3], 512 * e, ratio)
    ensures r.Ok? ==> r.value.attention == LevelAttention(64, 64)
    ensures r.Ok? ==> r.value.classifier.fc2 == Linear(512, numClasses)
  {
    var inplanes := if deepBase then 128 else 64;
    if |layers| < 1 then Err(IndexError)
    else
      var l1 :- MakeLayer(ctor, inplanes, 64, layers[0], 1, 1);
      // the later stages use supported dilations and the block whose SE was
      // already built once, so after the first stage none of them can fail
      if |layers| < 2 then Err(IndexError)
      else
        var l2 := MakeLayer(ctor, l1.inplanes, 128, layers[1], 2, 1).value;
        if |layers| < 3 then Err(IndexError)
        else
          var l3 := MakeLayer(ctor, l2.inplanes, 256, layers[2], LateStride(dilated),
                              Layer3Dilation(dilated)).value;
          if |layers| < 4 then Err(IndexError)
          else
            var l4 := MakeLayer(ctor, l3.inplanes, 512, layers[3], LateStride(dilated),
                                Layer4Dilation(dilated)).value;
            var width := 512 * Expansion(ctor.kind);
            if dropout < 0.0 || dropout > 1.0 then Err(ValueError)
            else if numClasses < 0 then Err(NegativeDimension)
            else
            Ok(Net(Stem(deepBase), inplanes, MaxPool,
                   [l1.blocks, l2.blocks, l3.blocks, l4.blocks],
                   AttentionAsWritten(),
                   Classifier(width, Linear(width, 512), 512, Linear(512, numClasses))))
  }

  /** The channel chain closes end to end: the stem ends at `bn1`'s width,
      128 with `deep_base` and 64 without, which is the width the first block
      reads; every block reads the previous block's output; the last block
      outputs `512 * expansion`, the width of the classifier's BatchNorm1d and
      first Linear; and the classifier's own layers chain. */
  lemma NetChannelChain(ctor: BlockCtor, layers: seq<int>, numClasses: int, dilated: bool,
                        dropout: real, deepBase: bool)
    requires Build(ctor, layers, numClasses, dilated, dropout, deepBase).Ok?
    ensures var net := Build(ctor, layers, numClasses, dilated, dropout, deepBase).value;
      && Chained(net.stem)
      && net.stem[|net.stem| - 1].outCh == net.bn1
      && BlocksChained(AllBlocks(net), net.bn1)
      && EndWidth(AllBlocks(net), net.bn1) == 512 * Expansion(ctor.kind)
      && net.classifier.bnIn == net.classifier.fc1.inF == 512 * Expansion(ctor.kind)
      && net.classifier.fc1.outF == net.classifier.bnHidden == net.classifier.fc2.inF
  {
    var net := Build(ctor, layers, numClasses, dilated, dropout, deepBase).value;
    var e := Expansion(ctor.kind);
    var ls := net.layers;
    LayerInvariants(ls[0], ctor.kind, net.bn1, 64, layers[0], 1, 1);
    LayerInvariants(ls[1], ctor.kind, 64 * e, 128, layers[1], 2, 1);
    LayerInvariants(ls[2], ctor.kind, 128 * e, 256, layers[2], LateStride(dilated), Layer3Dilation(dilated));
    LayerInvariants(ls[3], ctor.kind, 256 * e, 512, layers[3], LateStride(dilated), Layer4Dilation(dilated));
    ChainAppend(ls[0], ls[1], net.bn1);
    ChainAppend(ls[0] + ls[1], ls[2], net.bn1);
    ChainAppend(ls[0] + ls[1] + ls[2], ls[3], net.bn1);
  }

  /** Every block of the network ends in an `SE` sized to the block's own
      output width and squeezed by the block's reduction ratio. */
  lemma NetSeGates(ctor: BlockCtor, layers: seq<int>, numClasses: int, dilated: bool,
                   dropout: real, deepBase: bool)
    requires Build(ctor, layers, numClasses, dilated, dropout, deepBase).Ok?
    ensures var net := Build(ctor, layers, numClasses, dilated, dropout, deepBase).value;
      forall b :: b in AllBlocks(net) ==>
        b.se.channels == OutWidth(b) && NewSe(OutWidth(b), SeRatio(ctor.seKwargs)) == Ok(b.se)
  {
    var net := Build(ctor, layers, numClasses, dilated, dropout, deepBase).value;
    var e, ratio := Expansion(ctor.kind), SeRatio(ctor.seKwargs);
    var ls := net.layers;
    forall j, b | 0 <= j < 4 && b in ls[j]
      ensures NewSe(OutWidth(b), ratio) == Ok(b.se)
    {
      var planes := [64, 128, 256, 512][j];
      assert LayerGates(ls[j], planes * e, ratio);
      assert b.kind == ctor.kind && b.planes == planes;
    }
  }

  /** Every block's shortcut matches its main path in width and stride. */
  lemma NetResidualFits(ctor: BlockCtor, layers: seq<int>, numClasses: int, dilated: bool,
                        dropout: real, deepBase: bool)
    requires Build(ctor, layers, numClasses, dilated, dropout, deepBase).Ok?
    ensures var net := Build(ctor, layers, numClasses, dilated, dropout, deepBase).value;
      forall b :: b in AllBlocks(net) ==> ResidualFits(b)
  {
    var net := Build(ctor, layers, numClasses, dilated, dropout, deepBase).value;
    var e := Expansion(ctor.kind);
    var ls := net.layers;
    LayerInvariants(ls[0], ctor.kind, net.bn1, 64, layers[0], 1, 1);
    LayerInvariants(ls[1], ctor.kind, 64 * e, 128, layers[1], 2, 1);
    LayerInvariants(ls[2], ctor.kind, 128 * e, 256, layers[2], LateStride(dilated), Layer3Dilation(dilated));
    LayerInvariants(ls[3], ctor.kind, 256 * e, 512, layers[3], LateStride(dilated), Layer4Dilation(dilated));
  }

  /** Spatial length of the feature map the last stage produces. */
  function FeatureSize(net: Net, h: int): int
    requires |net.layers| == 4
  {
    ThroughBlocks(AllBlocks(net), OutSize(net.maxpool, ThroughConvs(net.stem, h)))
  }

  /** Output stride: stem 2, max pool 2, stage 2 stride 2, and stages 3 and 4
      either stride 1 with dilations 2 and 4 (`dilated`, overall 8) or
      stride 2 each (overall 32). */
  lemma NetOutputStride(ctor: BlockCtor, layers: seq<int>, numClasses: int, dilated: bool,
                        dropout: real, deepBase: bool, h: nat)
    requires Build(ctor, layers, numClasses, dilated, dropout, deepBase).Ok?
    ensures FeatureSize(Build(ctor, layers, numClasses, dilated, dropout, deepBase).value, h)
            == CeilDiv(h, if dilated then 8 else 32)
  {
    var net := Build(ctor, layers, numClasses, dilated, dropout, deepBase).value;
    var e := Expansion(ctor.kind);
    var ls := net.layers;
    var s := LateStride(dilated);
    // stem and max pool: ceil(h / 4)
    var stem := net.stem;
    assert StrideProduct(stem) == 2 by {
      if deepBase {
        assert StrideProduct(stem[1..][1..][1..]) == 1;
        assert StrideProduct(stem[1..][1..]) == 1;
      } else {
        assert StrideProduct(stem[1..]) == 1;
      }
    }
    SamePaddedStack(stem, h);
    SamePaddedOutSize(MaxPool, CeilDiv(h, 2));
    CeilDivBounds(h, 2);
    CeilDivCompose(h, 2, 2);
    var h1 := CeilDiv(h, 4);
    CeilDivBounds(h, 4);
    // the four stages
    ThroughBlocksAppend(ls[0] + ls[1] + ls[2], ls[3], h1);
    ThroughBlocksAppend(ls[0] + ls[1], ls[2], h1);
    ThroughBlocksAppend(ls[0], ls[1], h1);
    LayerOutSize(ls[0], ctor.kind, net.bn1, 64, layers[0], 1, 1, h1);
    CeilDivByOne(h1);
    LayerOutSize(ls[1], ctor.kind, 64 * e, 128, layers[1], 2, 1, h1);
    CeilDivCompose(h, 4, 2);
    var h2 := CeilDiv(h, 8);
    CeilDivBounds(h, 8);
    LayerOutSize(ls[2], ctor.kind, 128 * e, 256, layers[2], s, Layer3Dilation(dilated), h2);
    CeilDivCompose(h, 8, s);
    var h3 := CeilDiv(h, 8 * s);
    CeilDivBounds(h, 8 * s);
    LayerOutSize(ls[3], ctor.kind, 256 * e, 512, layers[3], s, Layer4Dilation(dilated), h3);
    CeilDivCompose(h, 8 * s, s);
  }

  /** For the 224 x 224 input the constructor defaults to, the last stage's
      map is 28 x 28 when dilated and 7 x 7 otherwise. */
  lemma DefaultInputFeatureSize(ctor: BlockCtor, layers: seq<int>, numClasses: int,
                                dilated: bool, dropout: real, deepBase: bool)
    requires Build(ctor, layers, numClasses, dilated, dropout, deepBase).Ok?
    ensures FeatureSize(Build(ctor, layers, numClasses, dilated, dropout, deepBase).value, 224)
            == if dilated then 28 else 7
  {
    NetOutputStride(ctor, layers, numClasses, dilated, dropout, deepBase, 224);
  }

  /** The dilation map of the four stages. Stages 1 and 2 use dilation 1
      throughout. With `dilated`, stage 3 opens with a dilation-1 block and
      continues at 2, stage 4 opens at 2 and continues at 4, and
      previous_dilation is always the stage's. Without it every block of
      every stage has dilation 1. */
  lemma NetDilations(ctor: BlockCtor, layers: seq<int>, numClasses: int, dilated: bool,
                     dropout: real, deepBase: bool)
    requires Build(ctor, layers, numClasses, dilated, dropout, deepBase).Ok?
    ensures var ls := Build(ctor, layers, numClasses, dilated, dropout, deepBase).value.layers;
      && (forall j, i :: 0 <= j < 2 && 0 <= i < |ls[j]| ==>
            ls[j][i].dilation == ls[j][i].previousDilation == 1)
      && (dilated ==> ls[2][0].dilation == 1 && ls[2][0].previousDilation == 2)
      && (dilated ==> forall i :: 1 <= i < |ls[2]| ==>
                        ls[2][i].dilation == ls[2][i].previousDilation == 2)
      && (dilated ==> ls[3][0].dilation == 2 && ls[3][0].previousDilation == 4)
      && (dilated ==> forall i :: 1 <= i < |ls[3]| ==>
                        ls[3][i].dilation == ls[3][i].previousDilation == 4)
      && (!dilated ==> forall j, i :: 0 <= j < 4 && 0 <= i < |ls[j]| ==>
                         ls[j][i].dilation == ls[j][i].previousDilation == 1)
  {
    var ls: seq<seq<BlockSpec>> := Build(ctor, layers, numClasses, dilated, dropout, deepBase).value.layers;
    forall j, i | 0 <= j < 4 && 0 <= i < |ls[j]| && (j < 2 || !dilated)
      ensures ls[j][i].dilation == ls[j][i].previousDilation == 1
    {
      if i > 0 {
        assert ls[j][i].dilation == ls[j][i].previousDilation;
      }
    }
  }

  // ---------------------------------------------------------------------
  // The level-attention gate

  /** As written, the gate expects 64 channels whatever the block class, so
      it fits the first stage's output exactly for BasicBlock; after a
      Bottleneck first stage the feature map has 256 channels and the gate's
      first convolution cannot consume it. */
  lemma AttentionAsWrittenMismatch(ctor: BlockCtor, layers: seq<int>, numClasses: int,
                                   dilated: bool, dropout: real, deepBase: bool)
    requires Build(ctor, layers, numClasses, dilated, dropout, deepBase).Ok?
    ensures var net := Build(ctor, layers, numClasses, dilated, dropout, deepBase).value;
      && net.attention[0].inCh == 64
      && EndWidth(net.layers[0], net.bn1) == 64 * Expansion(ctor.kind)
      && (net.attention[0].inCh == EndWidth(net.layers[0], net.bn1) <==> ctor.kind == BasicBlock)
    ensures ctor.kind == Bottleneck ==>
      EndWidth(Build(ctor, layers, numClasses, dilated, dropout, deepBase).value.layers[0],
               Build(ctor, layers, numClasses, dilated, dropout, deepBase).value.bn1) == 256
  {
    var net := Build(ctor, layers, numClasses, dilated, dropout, deepBase).value;
    LayerInvariants(net.layers[0], ctor.kind, net.bn1, 64, layers[0], 1, 1);
  }

  /** The corrected gate `Attention(kind)` reads the first stage's output
      width, is a chain ending in one channel (broadcast over the feature map
      by `x * attention`), and keeps the spatial size; for BasicBlock it is
      the gate as written. */
  lemma AttentionFitsLayer1(ctor: BlockCtor, layers: seq<int>, numClasses: int,
                            dilated: bool, dropout: real, deepBase: bool, h: nat)
    requires Build(ctor, layers, numClasses, dilated, dropout, deepBase).Ok?
    ensures var net := Build(ctor, layers, numClasses, dilated, dropout, deepBase).value;
      var gate := Attention(ctor.kind);
      && gate[0].inCh == EndWidth(net.layers[0], net.bn1)
      && Chained(gate)
      && gate[|gate| - 1].outCh == 1
      && ThroughConvs(gate, h) == h
    ensures ctor.kind == BasicBlock ==> Attention(ctor.kind) == AttentionAsWritten()
  {
    var net := Build(ctor, layers, numClasses, dilated, dropout, deepBase).value;
    LayerInvariants(net.layers[0], ctor.kind, net.bn1, 64, layers[0], 1, 1);
    var a := Attention(ctor.kind);
    assert StrideProduct(a[1..][1..][1..][1..][1..]) == 1;
    assert StrideProduct(a[1..][1..][1..][1..]) == 1;
    assert StrideProduct(a[1..][1..][1..]) == 1;
    assert StrideProduct(a[1..][1..]) == 1;
    assert StrideProduct(a[1..]) == 1;
    SamePaddedStack(a, h);
    CeilDivByOne(h);
  }

  // ---------------------------------------------------------------------
  // Factories

  datatype Depth = Depth18 | Depth34 | Depth50 | Depth101 | Depth152

  /** The depth a factory's name announces. */
  function NominalDepth(d: Depth): nat
  {
    match d
    case Depth18 => 18
    case Depth34 => 34
    case Depth50 => 50
    case Depth101 => 101
    case Depth152 => 152
  }

  /** The `se_kwargs` keyword: absent, or passed (possibly as None). */
  datatype SeKeyword = Missing | Passed(seKwargs: Option<SeArgs>)

  /** Block argument and per-stage block counts a factory passes to `ResNet`. */
  datatype Arch = Arch(ctor: BlockCtor, counts: seq<int>)

  /** `resnet18` ... `resnet152` up to the `ResNet(...)` call. Every factory
      pops `se_kwargs` (KeyError when absent), but `resnet101` and
      `resnet152` then pass the bare `Bottleneck` class. */
  function FactoryArch(d: Depth, se: SeKeyword): (r: Result<Arch>)
    ensures r.Err? <==> se.Missing?
    ensures r.Err? ==> r.error == KeyError("se_kwargs")
    ensures r.Ok? ==> |r.value.counts| == 4 && forall i :: 0 <= i < 4 ==> r.value.counts[i] >= 2
    ensures r.Ok? ==> (r.value.ctor.kind == BasicBlock <==> d in {Depth18, Depth34})
  {
    match se
    case Missing => Err(KeyError("se_kwargs"))
    case Passed(s) =>
      match d
      case Depth18 => Ok(Arch(BlockCtor(BasicBlock, s), [2, 2, 2, 2]))
      case Depth34 => Ok(Arch(BlockCtor(BasicBlock, s), [3, 4, 6, 3]))
      case Depth50 => Ok(Arch(BlockCtor(Bottleneck, s), [3, 4, 6, 3]))
      case Depth101 => Ok(Arch(BlockCtor(Bottleneck, None), [3, 4, 23, 3]))
      case Depth152 => Ok(Arch(BlockCtor(Bottleneck, None), [3, 8, 36, 3]))
  }

  /** A factory's model (with the checkpoint loading left aside). `dropout`
      is one of the keyword arguments the factory forwards to `ResNet`. */
  function Factory(d: Depth, se: SeKeyword, numClasses: int, dilated: bool, dropout: real,
                   deepBase: bool): (r: Result<Net>)
    ensures r.Ok? <==> se.Passed? && (d in {Depth101, Depth152} || SeRatio(se.seKwargs) > 0)
                       && 0.0 <= dropout <= 1.0 && numClasses >= 0
    ensures r.Err? ==> r.error == (if se.Missing? then KeyError("se_kwargs")
                                   else if d !in {Depth101, Depth152} && SeRatio(se.seKwargs) <= 0
                                   then SeError(SeRatio(se.seKwargs))
                                   else if dropout < 0.0 || dropout > 1.0 then ValueError
                                   else NegativeDimension)
  {
    var arch :- FactoryArch(d, se);
    Build(arch.ctor, arch.counts, numClasses, dilated, dropout, deepBase)
  }

  /** `resnet101` and `resnet152` build the same model whatever `se_kwargs` holds. */
  lemma DeepFactoriesIgnoreSeKwargs(d: Depth, a: Option<SeArgs>, b: Option<SeArgs>,
                                    numClasses: int, dilated: bool, dropout: real, deepBase: bool)
    requires d == Depth101 || d == Depth152
    ensures Factory(d, Passed(a), numClasses, dilated, dropout, deepBase)
         == Factory(d, Passed(b), numClasses, dilated, dropout, deepBase)
  {
  }

  /** Weighted layers on the main paths of a run of blocks. */
  function MainPathConvs(bs: seq<BlockSpec>): nat
    decreases |bs|
  {
    if |bs| == 0 then 0 else |Convs(bs[0])| + MainPathConvs(bs[1..])
  }

  lemma {:induction false} MainPathConvsAppend(a: seq<BlockSpec>, b: seq<BlockSpec>)
    ensures MainPathConvs(a + b) == MainPathConvs(a) + MainPathConvs(b)
    decreases |a|
  {
    if |a| == 0 {
      assert a + b == b;
    } else {
      assert (a + b)[0] == a[0];
      assert (a + b)[1..] == a[1..] + b;
      MainPathConvsAppend(a[1..], b);
    }
  }

  lemma {:induction false} MainPathConvsUniform(bs: seq<BlockSpec>, kind: BlockKind)
    requires forall i :: 0 <= i < |bs| ==> bs[i].kind == kind
    ensures MainPathConvs(bs) == ConvsPerBlock(kind) * |bs|
    decreases |bs|
  {
    if |bs| > 0 {
      BlockGeometry(bs[0]);
      MainPathConvsUniform(bs[1..], kind);
    }
  }

  /** Blocks per stage: `max(1, layers[i])`. */
  function StageLength(count: int): nat
  {
    1 + RangeLen(1, count)
  }

  /** The main paths of a built network hold `ConvsPerBlock` weighted layers
      per block, and stage i holds `max(1, layers[i])` blocks. */
  lemma NetMainPathConvs(ctor: BlockCtor, layers: seq<int>, numClasses: int, dilated: bool,
                         dropout: real, deepBase: bool)
    requires Build(ctor, layers, numClasses, dilated, dropout, deepBase).Ok?
    ensures MainPathConvs(AllBlocks(Build(ctor, layers, numClasses, dilated, dropout, deepBase).value))
            == ConvsPerBlock(ctor.kind) * (StageLength(layers[0]) + StageLength(layers[1])
                                           + StageLength(layers[2]) + StageLength(layers[3]))
  {
    var net := Build(ctor, layers, numClasses, dilated, dropout, deepBase).value;
    var e := Expansion(ctor.kind);
    var ls := net.layers;
    LayerConvs(ls[0], ctor.kind, net.bn1, 64, layers[0], 1, 1);
    LayerConvs(ls[1], ctor.kind, 64 * e, 128, layers[1], 2, 1);
    LayerConvs(ls[2], ctor.kind, 128 * e, 256, layers[2], LateStride(dilated), Layer3Dilation(dilated));
    LayerConvs(ls[3], ctor.kind, 256 * e, 512, layers[3], LateStride(dilated), Layer4Dilation(dilated));
    MainPathConvsAppend(ls[0] + ls[1] + ls[2], ls[3]);
    MainPathConvsAppend(ls[0] + ls[1], ls[2]);
    MainPathConvsAppend(ls[0], ls[1]);
  }

  lemma LayerConvs(bs: seq<BlockSpec>, kind: BlockKind, inplanes: nat, planes: nat,
                   count: int, stride: Pos, dilation: Pos)
    requires LayerShape(bs, kind, inplanes, planes, count, stride, dilation)
    ensures MainPathConvs(bs) == ConvsPerBlock(kind) * StageLength(count)
  {
    MainPathConvsUniform(bs, kind);
  }

  /** Counting the weighted layers on the blocks' main paths, plus 2, gives
      the depth in the factory's name: 2 per BasicBlock for 18 and 34, 3 per
      Bottleneck for 50, 101, 152. The 2 is the naming convention's one stem
      convolution and one fully connected layer; this network has 1 or 3 stem
      convolutions and 2 linear layers. */
  lemma FactoryDepth(d: Depth, se: SeKeyword, numClasses: int, dilated: bool, dropout: real, deepBase: bool)
    requires Factory(d, se, numClasses, dilated, dropout, deepBase).Ok?
    ensures MainPathConvs(AllBlocks(Factory(d, se, numClasses, dilated, dropout, deepBase).value)) + 2
            == NominalDepth(d)
  {
    var arch := FactoryArch(d, se).value;
    FactoryIsBuild(d, se, numClasses, dilated, dropout, deepBase);
    NetMainPathConvs(arch.ctor, arch.counts, numClasses, dilated, dropout, deepBase);
    ArchDepth(d, se);
  }

  /** Once `se_kwargs` is popped, a factory is the constructor called with its architecture. */
  lemma FactoryIsBuild(d: Depth, se: SeKeyword, numClasses: int, dilated: bool, dropout: real,
                       deepBase: bool)
    requires se.Passed?
    ensures var arch := FactoryArch(d, se).value;
      Factory(d, se, numClasses, dilated, dropout, deepBase)
      == Build(arch.ctor, arch.counts, numClasses, dilated, dropout, deepBase)
  {
    var arch := FactoryArch(d, se).value;
    assert FactoryArch(d, se) == Ok(arch);
  }

  /** The block counts of each factory, weighted by its block's convolutions. */
  lemma ArchDepth(d: Depth, se: SeKeyword)
    requires se.Passed?
    ensures var arch := FactoryArch(d, se).value;
      var c := arch.counts;
      ConvsPerBlock(arch.ctor.kind)
        * (StageLength(c[0]) + StageLength(c[1]) + StageLength(c[2]) + StageLength(c[3])) + 2
      == NominalDepth(d)
  {
    var arch := FactoryArch(d, se).value;
    match d
    case Depth18 => assert arch.counts == [2, 2, 2, 2] && ConvsPerBlock(arch.ctor.kind) == 2;
    case Depth34 => assert arch.counts == [3, 4, 6, 3] && ConvsPerBlock(arch.ctor.kind) == 2;
    case Depth50 => assert arch.counts == [3, 4, 6, 3] && ConvsPerBlock(arch.ctor.kind) == 3;
    case Depth101 => assert arch.counts == [3, 4, 23, 3] && ConvsPerBlock(arch.ctor.kind) == 3;
    case Depth152 => assert arch.counts == [3, 8, 36, 3] && ConvsPerBlock(arch.ctor.kind) == 3;
  }
}

=== FILE: log_parser.dfy ===
/** `LogParser.parse_log_dict` of `src/log.py`: the decisions behind one log
    message. A message is a sequence of pieces; the numbers in it stay
    unformatted (a piece records the value and the format it is printed
    with). The clock is an input: `self.t` before the call and `time()`
    during it. The log dicts are mutated in place by the source, also when
    the call then raises; here the dicts as the call leaves them, and
    `self.t`, are returned next to the message or the exception. */
module LogParser {
  import opened Python
  import opened Text

  /** A logged value: a Python `float` (numpy's float64 included), a numpy
      array of rank at least 1, or anything else (ints, strings, lists, torch
      tensors, ...). An array or other object is known by `id`, which stands
      for its contents: objects with the same `id` hold the same contents, so
      each label and prediction stays distinguishable to `f1_score`. */
  datatype Value = Float(x: real) | Array(id: nat) | Other(id: nat)

  /** An array the metric update computes (precision, recall, F1); its
      elements are not modelled. */
  const MetricArray: Value := Array(0)

  datatype Entry = Entry(key: string, value: Value)

  /** A Python dict, in insertion order. */
  type LogDict = seq<Entry>

  predicate DistinctKeys(d: LogDict)
  {
    forall i, j :: 0 <= i < j < |d| ==> d[i].key != d[j].key
  }

  /** `d.get(k)`: the value of the first entry with key `k`. */
  function Lookup(d: LogDict, k: string): (r: Option<Value>)
    ensures r.Some? <==> exists i :: 0 <= i < |d| && d[i].key == k
    decreases |d|
  {
    if |d| == 0 then None
    else if d[0].key == k then Some(d[0].value)
    else
      assert forall i :: 1 <= i < |d| ==> d[i] == d[1..][i - 1];
      Lookup(d[1..], k)
  }

  /** `d[k] = v`: an existing key keeps its place and takes the new value;
      a new key goes at the end. */
  function Assign(d: LogDict, k: string, v: Value): (r: LogDict)
    ensures Lookup(d, k).Some? ==> |r| == |d|
    ensures Lookup(d, k).None? ==> r == d + [Entry(k, v)]
    ensures forall i :: 0 <= i < |d| ==> r[i].key == d[i].key
    decreases |d|
  {
    if |d| == 0 then [Entry(k, v)]
    else if d[0].key == k then [Entry(k, v)] + d[1..]
    else [d[0]] + Assign(d[1..], k, v)
  }

  /** After `d[k] = v`, `k` maps to `v` and every other key to what it did before. */
  lemma {:induction false} AssignLookup(d: LogDict, k: string, v: Value, k': string)
    ensures Lookup(Assign(d, k, v), k') == if k' == k then Some(v) else Lookup(d, k')
    decreases |d|
  {
    if |d| > 0 && d[0].key != k {
      AssignLookup(d[1..], k, v, k');
      var r := Assign(d, k, v);
      assert r[1..] == Assign(d[1..], k, v);
    }
  }

  /** Assignment keeps the keys of a dict distinct. */
  lemma AssignDistinct(d: LogDict, k: string, v: Value)
    requires DistinctKeys(d)
    ensures DistinctKeys(Assign(d, k, v))
  {
    var r := Assign(d, k, v);
    forall i, j | 0 <= i < j < |r|
      ensures r[i].key != r[j].key
    {
      if j < |d| {
        assert r[i].key == d[i].key && r[j].key == d[j].key;
      } else {
        assert r == d + [Entry(k, v)];
        assert r[j].key == k && r[i].key == d[i].key;
      }
    }
  }

  // ----- the period of the learning-rate schedule -----

  /** The learning-rate settings the header reads from `config.train`. */
  datatype TrainConfig = TrainConfig(lrCurve: string, lrBounds: seq<int>, lrs: seq<real>)

  /** The curves whose header reports a period. */
  const ScheduledCurves: set<string> := {"cos", "cyclical", "one_cycle"}

  /** Period i is the half-open interval `[bounds[i], bounds[i+1])`. */
  predicate InPeriod(bounds: seq<int>, i: int, epoch: int)
    requires 0 <= i < |bounds| - 1
  {
    bounds[i] <= epoch < bounds[i + 1]
  }

  /** The loop `for idx in range(len(bounds) - 1)` with its `break`, resumed at
      `idx == i`: it stops at the first period holding the epoch, or runs out
      and leaves `idx` at the last index it took. */
  function ScanPeriods(bounds: seq<int>, epoch: int, i: nat): (idx: nat)
    requires |bounds| >= 2 && i <= |bounds| - 2
    ensures i <= idx <= |bounds| - 2
    ensures forall j :: i <= j < idx ==> !InPeriod(bounds, j, epoch)
    ensures InPeriod(bounds, idx, epoch) || idx == |bounds| - 2
    decreases |bounds| - i
  {
    if InPeriod(bounds, i, epoch) || i == |bounds| - 2 then i
    else ScanPeriods(bounds, epoch, i + 1)
  }

  /** The value of `idx` after the loop. With fewer than two bounds the loop
      never runs and reading `idx` raises UnboundLocalError. Otherwise it is
      the first period holding the epoch, or the last period when none does. */
  function PeriodIndex(bounds: seq<int>, epoch: int): (r: Result<nat>)
    ensures r.Err? <==> |bounds| < 2
    ensures r.Err? ==> r.error == UnboundLocalError("idx")
    ensures r.Ok? ==> r.value <= |bounds| - 2
    ensures r.Ok? ==> forall j :: 0 <= j < r.value ==> !InPeriod(bounds, j, epoch)
    ensures r.Ok? ==> ((exists j :: 0 <= j < |bounds| - 1 && InPeriod(bounds, j, epoch))
                       <==> InPeriod(bounds, r.value, epoch))
    ensures r.Ok? && (forall j :: 0 <= j < |bounds| - 1 ==> !InPeriod(bounds, j, epoch)) ==>
              r.value == |bounds| - 2
  {
    if |bounds| < 2 then Err(UnboundLocalError("idx"))
    else Ok(ScanPeriods(bounds, epoch, 0))
  }

  predicate Sorted(bounds: seq<int>)
  {
    forall i, j :: 0 <= i <= j < |bounds| ==> bounds[i] <= bounds[j]
  }

  /** With sorted bounds, an epoch in `[bounds[i], bounds[-1])` lies in some
      period at or after i. */
  lemma {:induction false} SomePeriodFrom(bounds: seq<int>, epoch: int, i: nat)
    requires Sorted(bounds) && i < |bounds| - 1
    requires bounds[i] <= epoch < bounds[|bounds| - 1]
    ensures exists j :: i <= j < |bounds| - 1 && InPeriod(bounds, j, epoch)
    decreases |bounds| - i
  {
    if epoch < bounds[i + 1] {
      assert InPeriod(bounds, i, epoch);
    } else {
      SomePeriodFrom(bounds, epoch, i + 1);
    }
  }

  /** For sorted bounds the lookup finds the period holding the epoch whenever
      the epoch lies between the first and the last bound, and reports the
      last period once the epoch has passed the last bound. */
  lemma PeriodOfSortedBounds(bounds: seq<int>, epoch: int)
    requires |bounds| >= 2 && Sorted(bounds)
    ensures bounds[0] <= epoch < bounds[|bounds| - 1] ==>
              InPeriod(bounds, PeriodIndex(bounds, epoch).value, epoch)
    ensures epoch >= bounds[|bounds| - 1] ==> PeriodIndex(bounds, epoch).value == |bounds| - 2
  {
    if bounds[0] <= epoch < bounds[|bounds| - 1] {
      SomePeriodFrom(bounds, epoch, 0);
    }
    if epoch >= bounds[|bounds| - 1] {
      assert forall j :: 0 <= j < |bounds| - 1 ==> !InPeriod(bounds, j, epoch);
    }
  }

  // ----- message pieces -----

  /** How a number is printed: `{:.3e}`, `{:.2f}`, `{:.5f}` or `{:.3%}`. */
  datatype NumFormat = Sci3 | Fixed2 | Fixed5 | Percent3

  /** One piece of a log message. An entry `"{k} {v} {sep} "` is the three
      pieces `Key(k)` (`"k "`), `Num(format, v)` (`"v "`) and `Sep(c)` (`"c "`);
      `Label(tag)` is the segment `"  {tag} : "`; `ArrayText(name)` is
      `np.array2string` of the array stored under `name`. */
  datatype Piece =
    | Lit(text: string)
    | Int(n: int)
    | Num(format: NumFormat, x: real)
    | Label(tag: string)
    | Key(key: string)
    | Sep(sep: string)
    | ArrayText(name: string)

  type Message = seq<Piece>

  /** The kinds of text a message's pieces carry. */
  datatype Selector = Labels | Keys | Seps | Arrays

  /** The text of kind `f` one piece carries. */
  function Pick(p: Piece, f: Selector): seq<string>
  {
    match f
    case Labels => if p.Label? then [p.tag] else []
    case Keys => if p.Key? then [p.key] else []
    case Seps => if p.Sep? then [p.sep] else []
    case Arrays => if p.ArrayText? then [p.name] else []
  }

  /** The texts of kind `f` in `m`, in order. */
  function Select(m: Message, f: Selector): seq<string>
    decreases |m|
  {
    if |m| == 0 then [] else Pick(m[0], f) + Select(m[1..], f)
  }

  lemma {:induction false} SelectAppend(a: Message, b: Message, f: Selector)
    ensures Select(a + b, f) == Select(a, f) + Select(b, f)
    decreases |a|
  {
    if |a| == 0 {
      assert a + b == b;
    } else {
      var ab := a + b;
      assert ab[0] == a[0];
      assert ab[1..] == a[1..] + b;
      SelectAppend(a[1..], b, f);
    }
  }

  lemma {:induction false} SelectNothing(m: Message, f: Selector)
    requires forall i :: 0 <= i < |m| ==> Pick(m[i], f) == []
    ensures Select(m, f) == []
    decreases |m|
  {
    if |m| > 0 {
      SelectNothing(m[1..], f);
    }
  }

  /** The text of a three-piece message, piece by piece. */
  lemma SelectThree(m: Message, f: Selector)
    requires |m| == 3
    ensures Select(m, f) == Pick(m[0], f) + Pick(m[1], f) + Pick(m[2], f)
  {
    assert m[1..][0] == m[1] && m[1..][1..] == m[2..];
    assert m[2..][0] == m[2] && |m[2..][1..]| == 0;
    assert Select(m[2..], f) == Pick(m[2], f);
  }

  lemma SelectCons(p: Piece, m: Message, f: Selector)
    ensures Select([p] + m, f) == Pick(p, f) + Select(m, f)
  {
    var pm := [p] + m;
    assert pm[0] == p;
    assert pm[1..] == m;
  }

  // ----- the header line -----

  /** A clock interval `t - self.t` that Python can divide by. */
  type Interval = x: real | x != 0.0 witness 1.0

  /** The throughput `num_imgs / (t - self.t)` in images per second. */
  function Rate(numImgs: real, elapsed: Interval): real
  {
    numImgs / elapsed
  }

  /** The first line of the message: none, the `'normal'` form, or the form
      with the learning-rate period. A header records the image count and
      the interval its rate is computed from. */
  datatype Header =
    | NoHeader
    | Plain(epoch: int, lr: real, imgs: real, elapsed: Interval)
    | Scheduled(epoch: int, lr: real, lo: int, hi: int, imgs: real, elapsed: Interval)

  /** The header for `config.train['lr_curve']`: `'normal'` reports the `lr`
      argument; the scheduled curves report `lrs[idx]` and the period
      `[bounds[idx], bounds[idx+1])` (IndexError when `lrs` is too short);
      any other curve writes no header. The format arguments are evaluated
      left to right, so the throughput's ZeroDivisionError (equal clock
      readings) comes after the period's errors, and only when a header is
      written. */
  function MakeHeader(cfg: TrainConfig, epoch: int, lr: real, numImgs: real, elapsed: real)
    : (r: Result<Header>)
    ensures cfg.lrCurve == "normal" ==>
              r == if elapsed == 0.0 then Err(ZeroDivisionError)
                   else Ok(Plain(epoch, lr, numImgs, elapsed))
    ensures cfg.lrCurve != "normal" && cfg.lrCurve !in ScheduledCurves ==> r == Ok(NoHeader)
    ensures cfg.lrCurve in ScheduledCurves && |cfg.lrBounds| < 2 ==>
              r == Err(UnboundLocalError("idx"))
    ensures cfg.lrCurve in ScheduledCurves && |cfg.lrBounds| >= 2 ==>
              var idx := PeriodIndex(cfg.lrBounds, epoch).value;
              && (idx >= |cfg.lrs| ==> r == Err(IndexError))
              && (idx < |cfg.lrs| ==>
                    r == if elapsed == 0.0 then Err(ZeroDivisionError)
                         else Ok(Scheduled(epoch, cfg.lrs[idx], cfg.lrBounds[idx],
                                           cfg.lrBounds[idx + 1], numImgs, elapsed)))
  {
    if cfg.lrCurve == "normal" then
      if elapsed == 0.0 then Err(ZeroDivisionError)
      else Ok(Plain(epoch, lr, numImgs, elapsed))
    else if cfg.lrCurve in ScheduledCurves then
      var idx :- PeriodIndex(cfg.lrBounds, epoch);
      if idx >= |cfg.lrs| then Err(IndexError)
      else if elapsed == 0.0 then Err(ZeroDivisionError)
      else Ok(Scheduled(epoch, cfg.lrs[idx], cfg.lrBounds[idx], cfg.lrBounds[idx + 1], numImgs, elapsed))
    else Ok(NoHeader)
  }

  /** For a scheduled curve with sorted bounds, one rate per period and an
      epoch inside the schedule, the header reports the period holding the
      epoch and that period's rate. */
  lemma HeaderReportsCurrentPeriod(cfg: TrainConfig, epoch: int, lr: real, numImgs: real,
                                   elapsed: real)
    requires cfg.lrCurve in ScheduledCurves && elapsed != 0.0
    requires |cfg.lrBounds| >= 2 && Sorted(cfg.lrBounds)
    requires |cfg.lrs| >= |cfg.lrBounds| - 1
    requires cfg.lrBounds[0] <= epoch < cfg.lrBounds[|cfg.lrBounds| - 1]
    ensures MakeHeader(cfg, epoch, lr, numImgs, elapsed).Ok?
    ensures var h := MakeHeader(cfg, epoch, lr, numImgs, elapsed).value;
      && h.Scheduled? && h.lo <= epoch < h.hi
      && exists j :: 0 <= j < |cfg.lrBounds| - 1 && h.lr == cfg.lrs[j]
                     && h.lo == cfg.lrBounds[j] && h.hi == cfg.lrBounds[j + 1]
  {
    PeriodOfSortedBounds(cfg.lrBounds, epoch);
    var idx := PeriodIndex(cfg.lrBounds, epoch).value;
    assert InPeriod(cfg.lrBounds, idx, epoch);
  }

  function HeaderPieces(h: Header): Message
  {
    match h
    case NoHeader => []
    case Plain(e, lr, imgs, elapsed) =>
      [Lit("epoch "), Int(e), Lit("  ,  lr "), Num(Sci3, lr), Lit(" "), Num(Fixed2, Rate(imgs, elapsed)),
       Lit(" imgs/s\n")]
    case Scheduled(e, lr, lo, hi, imgs, elapsed) =>
      [Lit("epoch "), Int(e), Lit(" , lr "), Num(Sci3, lr), Lit(" , lr_period ["), Int(lo),
       Lit(","), Int(hi), Lit(") "), Num(Fixed2, Rate(imgs, elapsed)), Lit(" imgs/s\n")]
  }

  // ----- the entries of one dict -----

  /** The key as printed: every `err` becomes `acc`. */
  function PrintedKey(k: string): string
  {
    if Contains(k, "err") then Replace(k, "err", "acc") else k
  }

  /** Keys printed as percentages. */
  predicate IsPercentKey(k: string)
  {
    Contains(k, "err") || Contains(k, "acc") || Contains(k, "top")
  }

  /** The pieces for one entry; `last` is whether it is the last entry of the
      dict. Only floats are printed; an error rate is printed as an accuracy. */
  function EntryPieces(e: Entry, last: bool): Message
  {
    match e.value
    case Array(_) => []
    case Other(_) => []
    case Float(x) =>
      var k := PrintedKey(e.key);
      var v := if Contains(e.key, "err") then 1.0 - x else x;
      [Key(k), Num(if IsPercentKey(k) then Percent3 else Fixed5, v), Sep(if last then "\n" else ",")]
  }

  /** A float entry prints its renamed key, no `err` is left in it, an error
      rate `x` is printed as the accuracy `1 - x`, and a renamed key is always
      printed as a percentage; otherwise the percent format is chosen exactly
      for keys containing `acc` or `top`. */
  lemma EntryFormat(e: Entry, last: bool)
    requires e.value.Float?
    ensures var m := EntryPieces(e, last);
      && |m| == 3 && m[0] == Key(PrintedKey(e.key))
      && !Contains(PrintedKey(e.key), "err")
      && m[1].Num? && m[2] == Sep(if last then "\n" else ",")
      && (Contains(e.key, "err") ==> m[1] == Num(Percent3, 1.0 - e.value.x))
      && (!Contains(e.key, "err") ==>
            m[1].x == e.value.x
            && (m[1].format == Percent3 <==> Contains(e.key, "acc") || Contains(e.key, "top"))
            && (m[1].format != Percent3 ==> m[1].format == Fixed5))
  {
    if Contains(e.key, "err") {
      ErrToAccRemovesErr(e.key);
      ErrToAccIntroducesAcc(e.key);
    }
  }

  /** The entries from index i on; the last entry of the dict ends its line. */
  function DictPieces(d: LogDict, i: nat): Message
    requires i <= |d|
    decreases |d| - i
  {
    if i == |d| then [] else EntryPieces(d[i], i == |d| - 1) + DictPieces(d, i + 1)
  }

  /** The printed keys of the float entries from index i on, in dict order. */
  function FloatKeys(d: LogDict, i: nat): seq<string>
    requires i <= |d|
    decreases |d| - i
  {
    if i == |d| then []
    else (if d[i].value.Float? then [PrintedKey(d[i].key)] else []) + FloatKeys(d, i + 1)
  }

  function FloatCount(d: LogDict, i: nat): nat
    requires i <= |d|
    decreases |d| - i
  {
    if i == |d| then 0 else (if d[i].value.Float? then 1 else 0) + FloatCount(d, i + 1)
  }

  /** A run of `n` commas. */
  function Commas(n: nat): seq<string>
  {
    seq(n, _ => ",")
  }

  /** The keys of a dict's segment are the renamed keys of its float entries,
      in dict order, none of them containing `err`. */
  lemma {:induction false} PrintedKeys(d: LogDict, i: nat)
    requires i <= |d|
    ensures Select(DictPieces(d, i), Keys) == FloatKeys(d, i)
    ensures forall k :: k in FloatKeys(d, i) ==> !Contains(k, "err")
    decreases |d| - i
  {
    if i < |d| {
      var last := i == |d| - 1;
      PrintedKeys(d, i + 1);
      SelectAppend(EntryPieces(d[i], last), DictPieces(d, i + 1), Keys);
      EntryKey(d[i], last);
      var here := if d[i].value.Float? then [PrintedKey(d[i].key)] else [];
      assert FloatKeys(d, i) == here + FloatKeys(d, i + 1);
      assert forall k :: k in here ==> !Contains(k, "err");
    }
  }

  /** A float entry contributes its printed key, which has no `err`; any
      other entry contributes none. */
  lemma EntryKey(e: Entry, last: bool)
    ensures Select(EntryPieces(e, last), Keys)
            == if e.value.Float? then [PrintedKey(e.key)] else []
    ensures e.value.Float? ==> !Contains(PrintedKey(e.key), "err")
  {
    var m := EntryPieces(e, last);
    if e.value.Float? {
      EntryFormat(e, last);
      SelectThree(m, Keys);
    }
  }

  /** The separators of a dict's segment: one per float entry, all commas
      except a newline after the dict's last entry when that entry is a float. */
  lemma {:induction false} Separators(d: LogDict, i: nat)
    requires i <= |d|
    ensures var endsLine := i < |d| && d[|d| - 1].value.Float?;
      && (endsLine ==> FloatCount(d, i) >= 1)
      && Select(DictPieces(d, i), Seps)
         == Commas(FloatCount(d, i) - (if endsLine then 1 else 0)) + (if endsLine then ["\n"] else [])
    decreases |d| - i
  {
    if i < |d| {
      var last := i == |d| - 1;
      var m := EntryPieces(d[i], last);
      Separators(d, i + 1);
      SelectAppend(m, DictPieces(d, i + 1), Seps);
      EntrySeparator(d[i], last);
      if d[i].value.Float? && !last {
        CommasCons(FloatCount(d, i + 1) - (if d[|d| - 1].value.Float? then 1 else 0));
      }
    }
  }

  /** A float entry contributes its separator; any other entry contributes none. */
  lemma EntrySeparator(e: Entry, last: bool)
    ensures Select(EntryPieces(e, last), Seps)
            == if e.value.Float? then [if last then "\n" else ","] else []
  {
    var m := EntryPieces(e, last);
    if e.value.Float? {
      SelectThree(m, Seps);
    }
  }

  lemma CommasCons(n: nat)
    ensures [","] + Commas(n) == Commas(n + 1)
  {
  }

  /** A dict's segment ends its line exactly when the dict's last entry is a float. */
  lemma NewlineIffLastIsFloat(d: LogDict)
    ensures "\n" in Select(DictPieces(d, 0), Seps) <==> |d| > 0 && d[|d| - 1].value.Float?
  {
    Separators(d, 0);
    var endsLine := |d| > 0 && d[|d| - 1].value.Float?;
    var n := FloatCount(d, 0) - (if endsLine then 1 else 0);
    CommasOnly(n);
    if endsLine {
      assert (Commas(n) + ["\n"])[n] == "\n";
    } else {
      assert Commas(n) + [] == Commas(n);
    }
  }

  lemma CommasOnly(n: nat)
    ensures "\n" !in Commas(n)
  {
    var c := Commas(n);
    assert forall j :: 0 <= j < |c| ==> c[j] == ",";
  }

  // ----- metrics from the confusion counts -----

  /** `all(x in log_dict for x in ['tp', 'tn', 'fp', 'fn'])`. */
  predicate HasConfusion(d: LogDict)
  {
    Lookup(d, "tp").Some? && Lookup(d, "tn").Some? && Lookup(d, "fp").Some? && Lookup(d, "fn").Some?
  }

  /** The derived arrays, in the order they are stored and printed. */
  const MetricNames: seq<string> := ["precision", "recall", "f1_score"]

  /** `"       {name} "`, the array, and a newline. */
  function MetricLine(name: string): Message
  {
    [Lit("       " + name + " "), ArrayText(name), Lit("\n")]
  }

  /** The precision, recall and F1 lines. */
  function MetricBlock(): Message
  {
    MetricLine("precision") + MetricLine("recall") + MetricLine("f1_score")
  }

  function MetricPieces(d: LogDict): Message
  {
    if HasConfusion(d) then MetricBlock() else []
  }

  /** Stores precision, recall and F1 (numpy arrays) when the counts are present;
      existing keys keep their places. */
  function AddMetrics(d: LogDict): (r: LogDict)
    ensures !HasConfusion(d) ==> r == d
    ensures |r| >= |d| && forall i :: 0 <= i < |d| ==> r[i].key == d[i].key
  {
    if HasConfusion(d) then
      var d1 := Assign(d, "precision", MetricArray);
      var d2 := Assign(d1, "recall", MetricArray);
      Assign(d2, "f1_score", MetricArray)
    else d
  }

  /** The metrics map to arrays when the counts are present; every other key,
      and every key when they are not, is left alone. */
  lemma AddMetricsLookup(d: LogDict, k: string)
    ensures Lookup(AddMetrics(d), k) == if HasConfusion(d) && k in MetricNames then Some(MetricArray) else Lookup(d, k)
  {
    assert k in MetricNames <==> k == "precision" || k == "recall" || k == "f1_score";
    if HasConfusion(d) {
      var d1 := Assign(d, "precision", MetricArray);
      var d2 := Assign(d1, "recall", MetricArray);
      assert AddMetrics(d) == Assign(d2, "f1_score", MetricArray);
      AssignLookup(d, "precision", MetricArray, k);
      AssignLookup(d1, "recall", MetricArray, k);
      AssignLookup(d2, "f1_score", MetricArray, k);
    }
  }

  /** A dict lookup that found a numpy array. */
  predicate IsArray(v: Option<Value>)
  {
    v.Some? && v.value.Array?
  }

  /** The four counts can be summed: `log_dict[c].sum(0).astype(np.float32)`
      is defined on numpy arrays, and any other value lacks `.sum` or
      `.astype` and raises AttributeError. Without all four counts nothing
      is computed. */
  predicate MetricsComputable(d: LogDict)
  {
    HasConfusion(d) ==>
      && IsArray(Lookup(d, "tp")) && IsArray(Lookup(d, "tn"))
      && IsArray(Lookup(d, "fp")) && IsArray(Lookup(d, "fn"))
  }

  lemma AddMetricsDistinct(d: LogDict)
    requires DistinctKeys(d)
    ensures DistinctKeys(AddMetrics(d))
  {
    if HasConfusion(d) {
      var d1 := Assign(d, "precision", MetricArray);
      var d2 := Assign(d1, "recall", MetricArray);
      AssignDistinct(d, "precision", MetricArray);
      AssignDistinct(d1, "recall", MetricArray);
      AssignDistinct(d2, "f1_score", MetricArray);
    }
  }

  // ----- macro F1 -----

  /** The line `log_dicts[tag]['macro_f1_score'] = f1_score(label, pred, average='macro')`
      when `f1_score_label` is present; `f1` stands for sklearn's computation
      on this dict's own label and prediction and returns a float. A label without a prediction raises KeyError. */
  function WithMacroF1(d: LogDict, f1: (Value, Value) -> real): (r: Result<LogDict>)
    ensures r.Err? <==> Lookup(d, "f1_score_label").Some? && Lookup(d, "f1_score_pred").None?
    ensures r.Err? ==> r.error == KeyError("f1_score_pred")
    ensures r.Ok? && Lookup(d, "f1_score_label").None? ==> r.value == d
    ensures r.Ok? ==> |r.value| >= |d| && forall i :: 0 <= i < |d| ==> r.value[i].key == d[i].key
  {
    match Lookup(d, "f1_score_label")
    case None => Ok(d)
    case Some(truth) =>
      match Lookup(d, "f1_score_pred")
      case None => Err(KeyError("f1_score_pred"))
      case Some(pred) => Ok(Assign(d, "macro_f1_score", Float(f1(truth, pred))))
  }

  /** With a label, `macro_f1_score` holds the F1 of label and prediction;
      every other key keeps its value. */
  lemma MacroF1Lookup(d: LogDict, f1: (Value, Value) -> real, k: string)
    requires WithMacroF1(d, f1).Ok?
    ensures Lookup(WithMacroF1(d, f1).value, k)
            == if k == "macro_f1_score" && Lookup(d, "f1_score_label").Some?
               then Some(Float(f1(Lookup(d, "f1_score_label").value, Lookup(d, "f1_score_pred").value)))
               else Lookup(d, k)
  {
    if Lookup(d, "f1_score_label").Some? {
      AssignLookup(d, "macro_f1_score",
                   Float(f1(Lookup(d, "f1_score_label").value, Lookup(d, "f1_score_pred").value)), k);
    }
  }

  lemma MacroF1KeepsCounts(d: LogDict, f1: (Value, Value) -> real)
    requires WithMacroF1(d, f1).Ok?
    ensures HasConfusion(WithMacroF1(d, f1).value) == HasConfusion(d)
    ensures MetricsComputable(WithMacroF1(d, f1).value) == MetricsComputable(d)
  {
    MacroF1Lookup(d, f1, "tp");
    MacroF1Lookup(d, f1, "tn");
    MacroF1Lookup(d, f1, "fp");
    MacroF1Lookup(d, f1, "fn");
  }

  lemma MacroF1Distinct(d: LogDict, f1: (Value, Value) -> real)
    requires WithMacroF1(d, f1).Ok? && DistinctKeys(d)
    ensures DistinctKeys(WithMacroF1(d, f1).value)
  {
    if Lookup(d, "f1_score_label").Some? {
      AssignDistinct(d, "macro_f1_score",
                     Float(f1(Lookup(d, "f1_score_label").value, Lookup(d, "f1_score_pred").value)));
    }
  }

  /** A tag and its dict. */
  datatype Tagged = Tagged(tag: string, dict: LogDict)

  /** The first loop over the tags: the first tag whose dict has a label but
      no prediction stops the call. */
  function MacroF1All(ds: seq<Tagged>, f1: (Value, Value) -> real): (r: Result<seq<Tagged>>)
    ensures r.Ok? <==> forall i :: 0 <= i < |ds| ==> WithMacroF1(ds[i].dict, f1).Ok?
    ensures r.Err? ==> r.error == KeyError("f1_score_pred")
    ensures r.Ok? ==> |r.value| == |ds|
    ensures r.Ok? ==> forall i :: 0 <= i < |ds| ==>
              r.value[i] == Tagged(ds[i].tag, WithMacroF1(ds[i].dict, f1).value)
    decreases |ds|
  {
    if |ds| == 0 then Ok([])
    else
      assert forall i :: 1 <= i < |ds| ==> ds[i] == ds[1..][i - 1];
      match WithMacroF1(ds[0].dict, f1)
      case Err(e) => Err(e)
      case Ok(d) =>
        match MacroF1All(ds[1..], f1)
        case Err(e) => Err(e)
        case Ok(rest) => Ok([Tagged(ds[0].tag, d)] + rest)
  }

  /** A dict passes the macro F1 line: it has no label, or a prediction too. */
  predicate Passes(d: LogDict)
  {
    Lookup(d, "f1_score_label").Some? ==> Lookup(d, "f1_score_pred").Some?
  }

  /** The dicts `ds[0]` to `ds[i]` all pass the macro F1 line. */
  predicate PassesUpTo(ds: seq<Tagged>, i: nat)
    requires i < |ds|
  {
    forall j :: 0 <= j <= i ==> Passes(ds[j].dict)
  }

  lemma PassesUpToCons(ds: seq<Tagged>, i: nat)
    requires i < |ds|
    ensures PassesUpTo(ds, i) <==> Passes(ds[0].dict) && (i == 0 || PassesUpTo(ds[1..], i - 1))
  {
    if Passes(ds[0].dict) && (i == 0 || PassesUpTo(ds[1..], i - 1)) {
      forall j | 0 < j <= i ensures Passes(ds[j].dict) {
        assert ds[j] == ds[1..][j - 1];
      }
    }
  }

  /** The dicts as the first loop leaves them, also when it raises: the
      loop stops at the first label without a prediction (the KeyError is
      raised while the right side of the assignment is evaluated, so that
      dict is untouched). */
  function FirstPass(ds: seq<Tagged>, f1: (Value, Value) -> real): (r: seq<Tagged>)
    ensures |r| == |ds|
    ensures forall i :: 0 <= i < |ds| ==> r[i].tag == ds[i].tag
    decreases |ds|
  {
    if |ds| == 0 then []
    else
      match WithMacroF1(ds[0].dict, f1)
      case Err(_) => ds
      case Ok(d) =>
        var rest := FirstPass(ds[1..], f1);
        assert forall i :: 1 <= i < |ds| ==> ds[i] == ds[1..][i - 1];
        [Tagged(ds[0].tag, d)] + rest
  }

  /** After the first loop, dict i holds its `macro_f1_score` update exactly
      when it and every dict before it passed; otherwise it is untouched. */
  lemma {:induction false} FirstPassDict(ds: seq<Tagged>, f1: (Value, Value) -> real, i: nat)
    requires i < |ds|
    ensures FirstPass(ds, f1)[i].dict
            == if PassesUpTo(ds, i) then WithMacroF1(ds[i].dict, f1).value else ds[i].dict
    decreases |ds|
  {
    PassesUpToCons(ds, i);
    var r := FirstPass(ds, f1);
    match WithMacroF1(ds[0].dict, f1)
    case Err(_) =>
      assert r == ds;
    case Ok(d) =>
      var rest := FirstPass(ds[1..], f1);
      assert r == [Tagged(ds[0].tag, d)] + rest;
      if i > 0 {
        FirstPassDict(ds[1..], f1, i - 1);
        assert r[i] == rest[i - 1] && ds[i] == ds[1..][i - 1];
      }
  }

  /** When every dict passes, the first loop leaves exactly the dicts
      `MacroF1All` returns. */
  lemma FirstPassAgrees(ds: seq<Tagged>, f1: (Value, Value) -> real)
    requires MacroF1All(ds, f1).Ok?
    ensures FirstPass(ds, f1) == MacroF1All(ds, f1).value
  {
    var r, m := FirstPass(ds, f1), MacroF1All(ds, f1).value;
    forall i | 0 <= i < |ds| ensures r[i] == m[i] {
      FirstPassDict(ds, f1, i);
      assert PassesUpTo(ds, i);
    }
  }

  /** Macro F1 updates leave the counts, so whether the metrics can be
      computed, as they were. */
  lemma MacroF1AllKeepsComputable(ds: seq<Tagged>, f1: (Value, Value) -> real)
    requires MacroF1All(ds, f1).Ok?
    ensures forall i :: 0 <= i < |ds| ==>
              MetricsComputable(MacroF1All(ds, f1).value[i].dict) == MetricsComputable(ds[i].dict)
  {
    forall i | 0 <= i < |ds|
      ensures MetricsComputable(MacroF1All(ds, f1).value[i].dict) == MetricsComputable(ds[i].dict)
    {
      MacroF1KeepsCounts(ds[i].dict, f1);
    }
  }

  // ----- the metrics of the second loop -----

  predicate AllComputable(ds: seq<Tagged>)
  {
    forall i :: 0 <= i < |ds| ==> MetricsComputable(ds[i].dict)
  }

  /** A loop over the tags that updates each dict in place with `upd` and
      raises at the first dict failing `ok`, which it leaves untouched. */
  function UpdateWhile(ds: seq<Tagged>, ok: LogDict -> bool, upd: LogDict -> LogDict): (r: seq<Tagged>)
    ensures |r| == |ds|
    ensures forall i :: 0 <= i < |ds| ==> r[i].tag == ds[i].tag
    decreases |ds|
  {
    if |ds| == 0 then []
    else if !ok(ds[0].dict) then ds
    else
      var rest := UpdateWhile(ds[1..], ok, upd);
      assert forall i :: 1 <= i < |ds| ==> ds[i] == ds[1..][i - 1];
      [Tagged(ds[0].tag, upd(ds[0].dict))] + rest
  }

  /** The dicts `ds[0]` to `ds[i]` all satisfy `ok`. */
  predicate OkUpTo(ds: seq<Tagged>, ok: LogDict -> bool, i: nat)
    requires i < |ds|
  {
    forall j :: 0 <= j <= i ==> ok(ds[j].dict)
  }

  /** After the loop, dict i is updated exactly when it and every dict
      before it satisfy `ok`; otherwise it is untouched. */
  lemma {:induction false} UpdateWhileDict(ds: seq<Tagged>, ok: LogDict -> bool,
                                           upd: LogDict -> LogDict, i: nat)
    requires i < |ds|
    ensures UpdateWhile(ds, ok, upd)[i].dict == if OkUpTo(ds, ok, i) then upd(ds[i].dict) else ds[i].dict
    decreases |ds|
  {
    var r := UpdateWhile(ds, ok, upd);
    if !ok(ds[0].dict) {
      assert r == ds;
    } else if i > 0 {
      var tail := ds[1..];
      var rest := UpdateWhile(tail, ok, upd);
      assert r == [Tagged(ds[0].tag, upd(ds[0].dict))] + rest;
      UpdateWhileDict(tail, ok, upd, i - 1);
      assert r[i] == rest[i - 1] && ds[i] == tail[i - 1];
      if OkUpTo(tail, ok, i - 1) {
        forall j | 0 < j <= i ensures ok(ds[j].dict) {
          assert ds[j] == tail[j - 1];
        }
      }
    }
  }

  /** The metrics of `ds[0]` to `ds[i]` can all be computed. */
  predicate ComputableUpTo(ds: seq<Tagged>, i: nat)
    requires i < |ds|
  {
    forall j :: 0 <= j <= i ==> MetricsComputable(ds[j].dict)
  }

  /** The dicts as the second loop leaves them when a count is not an
      array: the dicts before it hold their metrics, and that dict and the
      ones after it are untouched (the error comes before any assignment). */
  function MetricPass(ds: seq<Tagged>): (r: seq<Tagged>)
    ensures |r| == |ds|
    ensures forall i :: 0 <= i < |ds| ==> r[i].tag == ds[i].tag
  {
    UpdateWhile(ds, MetricsComputable, AddMetrics)
  }

  /** After a second loop that raises, dict i holds its metrics exactly when
      the metrics of it and every dict before it could be computed. */
  lemma MetricPassDict(ds: seq<Tagged>, i: nat)
    requires i < |ds|
    ensures MetricPass(ds)[i].dict == if ComputableUpTo(ds, i) then AddMetrics(ds[i].dict) else ds[i].dict
  {
    UpdateWhileDict(ds, MetricsComputable, AddMetrics, i);
    assert OkUpTo(ds, MetricsComputable, i) == ComputableUpTo(ds, i);
  }

  // ----- the whole message -----

  /** `"  {tag} : "`, the dict's entries, then the metric lines. */
  function TagPieces(t: Tagged): Message
  {
    [Label(t.tag)] + DictPieces(t.dict, 0) + MetricPieces(t.dict)
  }

  function BodyPieces(ds: seq<Tagged>): Message
    decreases |ds|
  {
    if |ds| == 0 then [] else TagPieces(ds[0]) + BodyPieces(ds[1..])
  }

  /** What a call leaves behind: the message it returns or the exception it
      raises, the dicts as mutated in place, and `self.t`. */
  datatype Parsed = Parsed(message: Result<Message>, dicts: seq<Tagged>, t: real)

  /** `parse_log_dict(log_dicts, epoch, lr, num_imgs, config)` called with
      `self.t == since` while `time()` reads `now`. The macro F1 pass runs
      before the header, so its KeyError comes first; a failing header
      leaves the macro F1 updates in place; a count that is not an array
      raises AttributeError in the second loop after the earlier dicts got
      their metrics; only a successful call moves `self.t` to `now`. */
  function ParseLogDict(ds: seq<Tagged>, epoch: int, lr: real, numImgs: real, cfg: TrainConfig,
                        f1: (Value, Value) -> real, since: real, now: real): (r: Parsed)
    ensures r.message.Ok? <==>
              MacroF1All(ds, f1).Ok? && MakeHeader(cfg, epoch, lr, numImgs, now - since).Ok? && AllComputable(ds)
    ensures MacroF1All(ds, f1).Err? ==>
              r.message == Err(KeyError("f1_score_pred")) && r.dicts == FirstPass(ds, f1)
    ensures MacroF1All(ds, f1).Ok? && MakeHeader(cfg, epoch, lr, numImgs, now - since).Err? ==>
              r.message == Err(MakeHeader(cfg, epoch, lr, numImgs, now - since).error)
              && r.dicts == MacroF1All(ds, f1).value
    ensures MacroF1All(ds, f1).Ok? && MakeHeader(cfg, epoch, lr, numImgs, now - since).Ok? && !AllComputable(ds) ==>
              r.message == Err(AttributeError) && r.dicts == MetricPass(MacroF1All(ds, f1).value)
    ensures |r.dicts| == |ds| && forall i :: 0 <= i < |ds| ==> r.dicts[i].tag == ds[i].tag
    ensures r.t == if r.message.Ok? then now else since
    ensures r.message.Ok? ==>
              r == Report(MakeHeader(cfg, epoch, lr, numImgs, now - since).value, MacroF1All(ds, f1).value, now)
  {
    match MacroF1All(ds, f1)
    case Err(e) => Parsed(Err(e), FirstPass(ds, f1), since)
    case Ok(withF1) =>
      MacroF1AllKeepsComputable(ds, f1);
      match MakeHeader(cfg, epoch, lr, numImgs, now - since)
      case Err(e) => Parsed(Err(e), withF1, since)
      case Ok(header) =>
        if AllComputable(withF1) then Report(header, withF1, now)
        else Parsed(Err(AttributeError), MetricPass(withF1), since)
  }

  /** The second loop of a call whose header succeeded and whose counts are
      all arrays: the message, and the dicts with their metrics added. */
  function Report(header: Header, withF1: seq<Tagged>, now: real): (r: Parsed)
    ensures r.message.Ok? && r.t == now
    ensures |r.dicts| == |withF1|
    ensures forall i :: 0 <= i < |withF1| ==>
              r.dicts[i] == Tagged(withF1[i].tag, AddMetrics(withF1[i].dict))
  {
    Parsed(Ok(HeaderPieces(header) + BodyPieces(withF1)),
           seq(|withF1|, i requires 0 <= i < |withF1| =>
                 Tagged(withF1[i].tag, AddMetrics(withF1[i].dict))),
           now)
  }

  /** After the macro F1 pass, dict i gets its metrics in the second loop
      exactly when the metrics of it and every dict before it could be
      computed. */
  lemma MetricPassAfterMacroF1(ds: seq<Tagged>, f1: (Value, Value) -> real, i: nat)
    requires MacroF1All(ds, f1).Ok? && i < |ds|
    ensures MetricPass(MacroF1All(ds, f1).value)[i].dict
            == if ComputableUpTo(ds, i) then AddMetrics(WithMacroF1(ds[i].dict, f1).value)
               else WithMacroF1(ds[i].dict, f1).value
  {
    var m := MacroF1All(ds, f1).value;
    MetricPassDict(m, i);
    assert m[i].dict == WithMacroF1(ds[i].dict, f1).value;
    assert ComputableUpTo(m, i) == ComputableUpTo(ds, i) by {
      forall j | 0 <= j <= i
        ensures MetricsComputable(m[j].dict) == MetricsComputable(ds[j].dict)
      {
        assert m[j].dict == WithMacroF1(ds[j].dict, f1).value;
        MacroF1KeepsCounts(ds[j].dict, f1);
      }
    }
  }

  /** What any call leaves in dict i: untouched when it or an earlier dict
      has a label without a prediction; otherwise its `macro_f1_score`
      update, followed by its metrics exactly when the whole first loop and
      the header succeeded and the metrics of it and every dict before it
      could be computed. */
  lemma DictsAfterCall(ds: seq<Tagged>, epoch: int, lr: real, numImgs: real, cfg: TrainConfig,
                       f1: (Value, Value) -> real, since: real, now: real, i: nat)
    requires i < |ds|
    ensures ParseLogDict(ds, epoch, lr, numImgs, cfg, f1, since, now).dicts[i].dict
            == if !PassesUpTo(ds, i) then ds[i].dict
               else if && MacroF1All(ds, f1).Ok?
                       && MakeHeader(cfg, epoch, lr, numImgs, now - since).Ok?
                       && ComputableUpTo(ds, i)
               then AddMetrics(WithMacroF1(ds[i].dict, f1).value)
               else WithMacroF1(ds[i].dict, f1).value
  {
    if MacroF1All(ds, f1).Err? {
      FirstPassDict(ds, f1, i);
    } else {
      assert MacroF1All(ds, f1).value[i].dict == WithMacroF1(ds[i].dict, f1).value;
      assert PassesUpTo(ds, i) by {
        forall j | 0 <= j <= i ensures Passes(ds[j].dict) {
          assert WithMacroF1(ds[j].dict, f1).Ok?;
        }
      }
      if MakeHeader(cfg, epoch, lr, numImgs, now - since).Ok? {
        if AllComputable(ds) {
          assert ComputableUpTo(ds, i);
        } else {
          MetricPassAfterMacroF1(ds, f1, i);
        }
      }
    }
  }

  /** Where a written header puts its throughput. */
  function RatePosition(h: Header): nat
  {
    if h.Plain? then 5 else 9
  }

  lemma HeaderRate(h: Header)
    requires !h.NoHeader?
    ensures RatePosition(h) + 1 < |HeaderPieces(h)|
    ensures HeaderPieces(h)[RatePosition(h)] == Num(Fixed2, Rate(h.imgs, h.elapsed))
    ensures HeaderPieces(h)[RatePosition(h) + 1] == Lit(" imgs/s\n")
  {
  }

  /** A successful call that writes a header reports, just before
      `" imgs/s\n"`, the throughput of this call: `num_imgs` over the time
      since the previous call, `now - since`, which is never zero here. */
  lemma ReportedRate(ds: seq<Tagged>, epoch: int, lr: real, numImgs: real, cfg: TrainConfig,
                     f1: (Value, Value) -> real, since: real, now: real)
    requires ParseLogDict(ds, epoch, lr, numImgs, cfg, f1, since, now).message.Ok?
    requires cfg.lrCurve == "normal" || cfg.lrCurve in ScheduledCurves
    ensures now - since != 0.0
    ensures var m := ParseLogDict(ds, epoch, lr, numImgs, cfg, f1, since, now).message.value;
      var j := if cfg.lrCurve == "normal" then 5 else 9;
      && j + 1 < |m|
      && m[j] == Num(Fixed2, Rate(numImgs, now - since))
      && m[j + 1] == Lit(" imgs/s\n")
  {
    var h := MakeHeader(cfg, epoch, lr, numImgs, now - since).value;
    var m := ParseLogDict(ds, epoch, lr, numImgs, cfg, f1, since, now).message.value;
    var j := if cfg.lrCurve == "normal" then 5 else 9;
    assert j + 1 < |m| && m[j] == Num(Fixed2, Rate(numImgs, now - since)) && m[j + 1] == Lit(" imgs/s\n") by {
      assert !h.NoHeader? && h.imgs == numImgs && h.elapsed == now - since && RatePosition(h) == j;
      assert m == HeaderPieces(h) + BodyPieces(MacroF1All(ds, f1).value);
      HeaderRate(h);
      assert m[j] == HeaderPieces(h)[j] && m[j + 1] == HeaderPieces(h)[j + 1];
    }
  }

  lemma HeaderHasNoLabels(h: Header)
    ensures Select(HeaderPieces(h), Labels) == []
  {
    SelectNothing(HeaderPieces(h), Labels);
  }

  lemma MetricLineText(name: string)
    ensures Select(MetricLine(name), Labels) == []
    ensures Select(MetricLine(name), Arrays) == [name]
  {
    var m := MetricLine(name);
    SelectThree(m, Labels);
    SelectThree(m, Arrays);
  }

  lemma MetricBlockText()
    ensures Select(MetricBlock(), Labels) == []
    ensures Select(MetricBlock(), Arrays) == MetricNames
  {
    var p, r, f := MetricLine("precision"), MetricLine("recall"), MetricLine("f1_score");
    MetricLineText("precision");
    MetricLineText("recall");
    MetricLineText("f1_score");
    SelectAppend(p, r, Labels);
    SelectAppend(p + r, f, Labels);
    SelectAppend(p, r, Arrays);
    SelectAppend(p + r, f, Arrays);
    assert Select(p + r, Arrays) == ["precision", "recall"];
  }

  lemma MetricLines(d: LogDict)
    ensures Select(MetricPieces(d), Labels) == []
    ensures Select(MetricPieces(d), Arrays) == (if HasConfusion(d) then MetricNames else [])
  {
    if HasConfusion(d) {
      MetricBlockText();
    }
  }

  /** A dict's entries carry no labels and no arrays. */
  lemma DictTextOnly(d: LogDict)
    ensures Select(DictPieces(d, 0), Labels) == []
    ensures Select(DictPieces(d, 0), Arrays) == []
  {
    DictHasNoLabels(d, 0);
    DictPiecesKinds(d, 0);
    SelectNothing(DictPieces(d, 0), Arrays);
  }

  lemma DictHasNoLabels(d: LogDict, i: nat)
    requires i <= |d|
    ensures Select(DictPieces(d, i), Labels) == []
  {
    var m := DictPieces(d, i);
    assert forall j :: 0 <= j < |m| ==> !m[j].Label? by {
      DictPiecesKinds(d, i);
    }
    SelectNothing(m, Labels);
  }

  lemma {:induction false} DictPiecesKinds(d: LogDict, i: nat)
    requires i <= |d|
    ensures forall j :: 0 <= j < |DictPieces(d, i)| ==>
              DictPieces(d, i)[j].Key? || DictPieces(d, i)[j].Num? || DictPieces(d, i)[j].Sep?
    decreases |d| - i
  {
    if i < |d| {
      DictPiecesKinds(d, i + 1);
    }
  }

  /** One tag segment: one label (its tag) and the metric lines when the
      confusion counts are present, in the order precision, recall, F1. */
  lemma TagSegment(t: Tagged)
    ensures Select(TagPieces(t), Labels) == [t.tag]
    ensures Select(TagPieces(t), Arrays) == (if HasConfusion(t.dict) then MetricNames else [])
  {
    var entries := DictPieces(t.dict, 0);
    var empty: Message := [];
    assert [Label(t.tag)] == [Label(t.tag)] + empty;
    SelectCons(Label(t.tag), empty, Labels);
    SelectCons(Label(t.tag), empty, Arrays);
    SelectAppend([Label(t.tag)] + entries, MetricPieces(t.dict), Labels);
    SelectAppend([Label(t.tag)], entries, Labels);
    SelectAppend([Label(t.tag)] + entries, MetricPieces(t.dict), Arrays);
    SelectAppend([Label(t.tag)], entries, Arrays);
    DictTextOnly(t.dict);
    MetricLines(t.dict);
  }

  function Tags(ds: seq<Tagged>): seq<string>
  {
    seq(|ds|, i requires 0 <= i < |ds| => ds[i].tag)
  }

  lemma TagsCons(ds: seq<Tagged>)
    requires |ds| > 0
    ensures Tags(ds) == [ds[0].tag] + Tags(ds[1..])
  {
  }

  lemma {:induction false} BodyLabels(ds: seq<Tagged>)
    ensures Select(BodyPieces(ds), Labels) == Tags(ds)
    decreases |ds|
  {
    if |ds| > 0 {
      BodyLabels(ds[1..]);
      SelectAppend(TagPieces(ds[0]), BodyPieces(ds[1..]), Labels);
      TagSegment(ds[0]);
      TagsCons(ds);
    }
  }

  /** The message has one `"  {tag} : "` segment per tag, in the dicts' order. */
  lemma OneSegmentPerTag(ds: seq<Tagged>, epoch: int, lr: real, numImgs: real, cfg: TrainConfig,
                         f1: (Value, Value) -> real, since: real, now: real)
    requires ParseLogDict(ds, epoch, lr, numImgs, cfg, f1, since, now).message.Ok?
    ensures Select(ParseLogDict(ds, epoch, lr, numImgs, cfg, f1, since, now).message.value, Labels) == Tags(ds)
  {
    var withF1 := MacroF1All(ds, f1).value;
    var header := MakeHeader(cfg, epoch, lr, numImgs, now - since).value;
    SelectAppend(HeaderPieces(header), BodyPieces(withF1), Labels);
    HeaderHasNoLabels(header);
    BodyLabels(withF1);
    SameTags(withF1, ds);
  }

  lemma SameTags(a: seq<Tagged>, b: seq<Tagged>)
    requires |a| == |b| && forall i :: 0 <= i < |a| ==> a[i].tag == b[i].tag
    ensures Tags(a) == Tags(b)
  {
  }

  /** What the call leaves under each key of each dict: `macro_f1_score` is
      set exactly when `f1_score_label` is present, the three metrics exactly
      when all four confusion counts are present, and every other key keeps
      its value. Renaming `err` to `acc` happens only in the message. */
  lemma DictMutation(ds: seq<Tagged>, epoch: int, lr: real, numImgs: real, cfg: TrainConfig,
                     f1: (Value, Value) -> real, since: real, now: real, i: nat, k: string)
    requires ParseLogDict(ds, epoch, lr, numImgs, cfg, f1, since, now).message.Ok?
    requires i < |ds|
    ensures var d := ds[i].dict;
      var d' := ParseLogDict(ds, epoch, lr, numImgs, cfg, f1, since, now).dicts[i].dict;
      Lookup(d', k)
      == if HasConfusion(d) && k in MetricNames then Some(MetricArray)
         else if k == "macro_f1_score" && Lookup(d, "f1_score_label").Some?
         then Some(Float(f1(Lookup(d, "f1_score_label").value, Lookup(d, "f1_score_pred").value)))
         else Lookup(d, k)
  {
    var d := ds[i].dict;
    var m := MacroF1All(ds, f1).value[i].dict;
    assert m == WithMacroF1(d, f1).value;
    MacroF1KeepsCounts(d, f1);
    AddMetricsLookup(m, k);
    MacroF1Lookup(d, f1, k);
  }

  /** Keys already in a dict keep their places, and keys stay distinct. */
  lemma DictOrder(ds: seq<Tagged>, epoch: int, lr: real, numImgs: real, cfg: TrainConfig,
                  f1: (Value, Value) -> real, since: real, now: real, i: nat)
    requires ParseLogDict(ds, epoch, lr, numImgs, cfg, f1, since, now).message.Ok?
    requires i < |ds|
    ensures var d := ds[i].dict;
      var d' := ParseLogDict(ds, epoch, lr, numImgs, cfg, f1, since, now).dicts[i].dict;
      && |d'| >= |d|
      && (forall j :: 0 <= j < |d| ==> d'[j].key == d[j].key)
      && (DistinctKeys(d) ==> DistinctKeys(d'))
  {
    var d := ds[i].dict;
    var m := MacroF1All(ds, f1).value[i].dict;
    assert m == WithMacroF1(d, f1).value;
    if DistinctKeys(d) {
      MacroF1Distinct(d, f1);
      AddMetricsDistinct(m);
    }
  }

  /** The three metric lines follow a tag's entries exactly when all four
      confusion counts are in its dict. */
  lemma MetricLinesIffCounts(ds: seq<Tagged>, f1: (Value, Value) -> real, i: nat)
    requires MacroF1All(ds, f1).Ok? && i < |ds|
    ensures var t := MacroF1All(ds, f1).value[i];
      Select(TagPieces(t), Arrays) == (if HasConfusion(ds[i].dict) then MetricNames else [])
  {
    var t := MacroF1All(ds, f1).value[i];
    assert t.dict == WithMacroF1(ds[i].dict, f1).value;
    MacroF1KeepsCounts(ds[i].dict, f1);
    TagSegment(t);
  }
}

=== FILE: python.dfy ===
/** The few pieces of Python semantics the models share: the exceptions the
    modelled code can raise, a result type that carries them (usable with
    `:-`), an optional value, and the length of a `range`. */
module Python {

  /** Exceptions raised by the modelled code. */
  datatype Error =
    | KeyError(key: string)             // a dict lookup or `pop` of a missing key
    | IndexError                        // a list index out of range
    | UnboundLocalError(name: string)   // a loop variable read after a loop that never ran
    | UnknownDilation(dilation: int)    // `RuntimeError("=> unknown dilation size: ...")`
    | ZeroDivisionError                 // `//` by zero
    | ShapeMismatch                     // `torch.cat` of tensors it cannot join (IndexError or RuntimeError)
    | ValueError                        // `nn.Dropout` with a probability outside [0, 1]
    | AttributeError                    // `.sum(0).astype(...)` on a value that is not a numpy array
    | NegativeDimension                 // `RuntimeError` of a linear layer given a negative width

  /** `None` or a value. */
  datatype Option<+T> = None | Some(value: T)

  /** Either the value a call returns or the exception it raises. */
  datatype Result<+T> = Ok(value: T) | Err(error: Error) {

    predicate IsFailure() {
      Err?
    }

    function PropagateFailure<U>(): Result<U>
      requires Err?
    {
      Err(error)
    }

    function Extract(): T
      requires Ok?
    {
      value
    }
  }

  /** Python's `a // b` on integers: the floor of the quotient, also for a
      negative divisor (Dafny's `/` is Euclidean instead). */
  function FloorDiv(a: int, b: int): int
    requires b != 0
  {
    if b > 0 then a / b else (-a) / (-b)
  }

  /** Number of iterations of `for i in range(lo, hi)`. */
  function RangeLen(lo: int, hi: int): nat
  {
    if hi <= lo then 0 else hi - lo
  }
}

=== FILE: stage_plan.dfy ===
/** The generic ResNet of `src/models/resnet.py`: a stem convolution, an
    optional max pool, one stage per entry of `num_blocks` chaining
    `num_features[i] -> num_features[i+1]` with `strides[i+1]`, an optional
    post-activation norm and the final linear layer `fc2`. The block classes
    come from a `layers` module that is not part of this model, so a block is
    recorded by the arguments the plan passes it. */
module StagePlan {
  import opened Python
  import opened Convolution
  import DilatedBlocks
  import DilatedResNet

  /** One call `block(in_channels, out_channels, kernel, stride, ...)`. */
  datatype Unit = Unit(inCh: nat, outCh: nat, kernel: nat, stride: Pos)

  /** `ResNet.build_blocks(block, in_channels, out_channels, stride, length)`. */
  function BuildBlocks(inCh: nat, outCh: nat, stride: Pos, length: int): (r: seq<Unit>)
    ensures |r| == 1 + RangeLen(1, length)
    ensures r[0] == Unit(inCh, outCh, 3, stride)
    ensures forall i :: 1 <= i < |r| ==> r[i] == Unit(outCh, outCh, 3, 1)
  {
    [Unit(inCh, outCh, 3, stride)] + seq(RangeLen(1, length), _ => Unit(outCh, outCh, 3, 1))
  }

  /** Each block of a stage reads the channels the previous one writes. */
  predicate UnitsChained(us: seq<Unit>)
  {
    forall i :: 0 < i < |us| ==> us[i].inCh == us[i - 1].outCh
  }

  function UnitStrides(us: seq<Unit>): (p: Pos)
    decreases |us|
  {
    if |us| == 0 then 1
    else
      MulGrows(UnitStrides(us[1..]), us[0].stride);
      UnitStrides(us[1..]) * us[0].stride
  }

  lemma {:induction false} UnitStridesOfOnes(us: seq<Unit>)
    requires forall i :: 0 <= i < |us| ==> us[i].stride == 1
    ensures UnitStrides(us) == 1
    decreases |us|
  {
    if |us| > 0 {
      UnitStridesOfOnes(us[1..]);
    }
  }

  /** A stage is a chain from `in_channels` to `out_channels` whose strides
      multiply to the stage's stride. */
  lemma BuildBlocksChain(inCh: nat, outCh: nat, stride: Pos, length: int)
    ensures var r := BuildBlocks(inCh, outCh, stride, length);
      && UnitsChained(r)
      && r[0].inCh == inCh
      && r[|r| - 1].outCh == outCh
      && UnitStrides(r) == stride
  {
    var r := BuildBlocks(inCh, outCh, stride, length);
    UnitStridesOfOnes(r[1..]);
  }

  /** What the constructor sizes. `maxpool` is present only with `use_maxpool`;
      `postBn` only with `pre_activation`. */
  datatype Plan = Plan(
    stem: Conv,
    maxpool: Option<Window>,
    stages: seq<seq<Unit>>,
    postBn: Option<nat>,
    fc2: Linear)

  function Last<T>(s: seq<T>): T
    requires |s| > 0
  {
    s[|s| - 1]
  }

  /** The plan `ResNet.__init__` builds. The stem reads `num_features[0]` and
      `strides[0]`; stage i reads `num_features[i+1]` and `strides[i+1]`, so
      either list shorter than `len(num_blocks) + 1` raises IndexError.
      `num_features[-1]` sizes `post_bn` and, without `feature_layer_dim`, `fc2`. */
  function NewPlan(numBlocks: seq<int>, numFeatures: seq<nat>, strides: seq<Pos>,
                   numClasses: nat, firstKernel: Pos, preActivation: bool, useMaxpool: bool,
                   featureLayerDim: Option<nat>): (r: Result<Plan>)
    ensures r.Ok? <==> |numFeatures| > |numBlocks| && |strides| > |numBlocks|
    ensures r.Err? ==> r.error == IndexError
    ensures r.Ok? ==> |r.value.stages| == |numBlocks|
    ensures r.Ok? ==> forall i :: 0 <= i < |numBlocks| ==>
              r.value.stages[i] == BuildBlocks(numFeatures[i], numFeatures[i + 1], strides[i + 1], numBlocks[i])
    ensures r.Ok? ==> r.value.stem == Conv(3, numFeatures[0], Window(firstKernel, strides[0], firstKernel / 2, 1))
    ensures r.Ok? ==> (r.value.maxpool.Some? <==> useMaxpool)
    ensures r.Ok? && useMaxpool ==> r.value.maxpool.value == Window(3, 2, 1, 1)
    ensures r.Ok? ==> r.value.postBn == (if preActivation then Some(Last(numFeatures)) else None)
    ensures r.Ok? ==> r.value.fc2.outF == numClasses
    ensures r.Ok? ==> r.value.fc2.inF == (if featureLayerDim.Some? then featureLayerDim.value
                                          else Last(numFeatures))
  {
    if |numFeatures| == 0 || |strides| == 0 then Err(IndexError)
    else if |numFeatures| <= |numBlocks| || |strides| <= |numBlocks| then Err(IndexError)
    else
      var stem := Conv(3, numFeatures[0], Window(firstKernel, strides[0], firstKernel / 2, 1));
      var stages := seq(|numBlocks|, i requires 0 <= i < |numBlocks| =>
                          BuildBlocks(numFeatures[i], numFeatures[i + 1], strides[i + 1], numBlocks[i]));
      var fcIn := match featureLayerDim case Some(w) => w case None => Last(numFeatures);
      Ok(Plan(stem,
              if useMaxpool then Some(Window(3, 2, 1, 1)) else None,
              stages,
              if preActivation then Some(Last(numFeatures)) else None,
              Linear(fcIn, numClasses)))
  }

  /** A stage is a non-empty chain from `inCh` to `outCh` whose strides
      multiply to `stride`. */
  predicate StageFits(us: seq<Unit>, inCh: nat, outCh: nat, stride: Pos)
  {
    && |us| > 0
    && UnitsChained(us)
    && us[0].inCh == inCh
    && Last(us).outCh == outCh
    && UnitStrides(us) == stride
  }

  /** The last block of `a` writes the channels the first block of `b` reads. */
  predicate Feeds(a: seq<Unit>, b: seq<Unit>)
  {
    |a| > 0 && |b| > 0 && Last(a).outCh == b[0].inCh
  }

  /** The stem writes the channels the first block of `stage` reads. */
  predicate StemFeeds(stem: Conv, stage: seq<Unit>)
  {
    |stage| > 0 && stem.outCh == stage[0].inCh
  }

  /** Stage i maps `num_features[i] -> num_features[i+1]` with stride
      `strides[i+1]`; the stem feeds the first stage; consecutive stages chain;
      the last stage outputs `num_features[len(num_blocks)]`. */
  lemma StagesChain(numBlocks: seq<int>, numFeatures: seq<nat>, strides: seq<Pos>,
                    numClasses: nat, firstKernel: Pos, preActivation: bool, useMaxpool: bool,
                    featureLayerDim: Option<nat>)
    requires NewPlan(numBlocks, numFeatures, strides, numClasses, firstKernel,
                     preActivation, useMaxpool, featureLayerDim).Ok?
    ensures var p := NewPlan(numBlocks, numFeatures, strides, numClasses, firstKernel,
                             preActivation, useMaxpool, featureLayerDim).value;
      && |p.stages| == |numBlocks|
      && (forall i :: 0 <= i < |numBlocks| ==>
            StageFits(p.stages[i], numFeatures[i], numFeatures[i + 1], strides[i + 1]))
      && (forall i :: 0 < i < |numBlocks| ==> Feeds(p.stages[i - 1], p.stages[i]))
      && (|numBlocks| > 0 ==> StemFeeds(p.stem, p.stages[0]))
      && (|numBlocks| > 0 ==> StageFits(Last(p.stages), numFeatures[|numBlocks| - 1],
                                        numFeatures[|numBlocks|], strides[|numBlocks|]))
  {
    var p := NewPlan(numBlocks, numFeatures, strides, numClasses, firstKernel,
                     preActivation, useMaxpool, featureLayerDim).value;
    forall i | 0 <= i < |numBlocks|
      ensures StageFits(p.stages[i], numFeatures[i], numFeatures[i + 1], strides[i + 1])
    {
      BuildBlocksChain(numFeatures[i], numFeatures[i + 1], strides[i + 1], numBlocks[i]);
    }
    forall i | 0 < i < |numBlocks|
      ensures Feeds(p.stages[i - 1], p.stages[i])
    {
      assert StageFits(p.stages[i - 1], numFeatures[i - 1], numFeatures[i], strides[i]);
      assert StageFits(p.stages[i], numFeatures[i], numFeatures[i + 1], strides[i + 1]);
    }
    if |numBlocks| > 0 {
      assert StageFits(p.stages[0], numFeatures[0], numFeatures[1], strides[1]);
      assert StageFits(p.stages[|numBlocks| - 1], numFeatures[|numBlocks| - 1],
                       numFeatures[|numBlocks|], strides[|numBlocks|]);
    }
  }

  /** Without `feature_layer_dim`, `fc2` reads `num_features[-1]`, which is
      what the last stage outputs exactly when `num_features[len(num_blocks)]`
      is the last entry's value, in particular when `num_features` has exactly
      `len(num_blocks) + 1` entries; `post_bn` has the same width as `fc2`'s input. */
  lemma ClassifierWidth(numBlocks: seq<int>, numFeatures: seq<nat>, strides: seq<Pos>,
                        numClasses: nat, firstKernel: Pos, preActivation: bool, useMaxpool: bool)
    requires |numBlocks| > 0
    requires NewPlan(numBlocks, numFeatures, strides, numClasses, firstKernel,
                     preActivation, useMaxpool, None).Ok?
    ensures var p := NewPlan(numBlocks, numFeatures, strides, numClasses, firstKernel,
                             preActivation, useMaxpool, None).value;
      && (p.fc2.inF == Last(Last(p.stages)).outCh <==> numFeatures[|numBlocks|] == Last(numFeatures))
      && (|numFeatures| == |numBlocks| + 1 ==> p.fc2.inF == Last(Last(p.stages)).outCh)
      && (preActivation ==> p.postBn == Some(p.fc2.inF))
  {
    StagesChain(numBlocks, numFeatures, strides, numClasses, firstKernel, preActivation,
                useMaxpool, None);
  }

  /** The stem pads by `first_kernel_size // 2`, which keeps the output at
      ceil(h / strides[0]) exactly when the kernel size is odd. */
  lemma StemPadding(numBlocks: seq<int>, numFeatures: seq<nat>, strides: seq<Pos>,
                    numClasses: nat, firstKernel: Pos, preActivation: bool, useMaxpool: bool,
                    featureLayerDim: Option<nat>, h: nat)
    requires NewPlan(numBlocks, numFeatures, strides, numClasses, firstKernel,
                     preActivation, useMaxpool, featureLayerDim).Ok?
    ensures var p := NewPlan(numBlocks, numFeatures, strides, numClasses, firstKernel,
                             preActivation, useMaxpool, featureLayerDim).value;
      && p.stem.inCh == 3
      && (SamePadded(p.stem.window) <==> firstKernel % 2 == 1)
      && (firstKernel % 2 == 1 ==> OutSize(p.stem.window, h) == CeilDiv(h, strides[0]))
  {
    var p := NewPlan(numBlocks, numFeatures, strides, numClasses, firstKernel,
                     preActivation, useMaxpool, featureLayerDim).value;
    if firstKernel % 2 == 1 {
      SamePaddedOutSize(p.stem.window, h);
    }
  }

  /** The kind of block (`BasicBlock` or `Bottleneck`, as the `layers` module
      names them) and `num_blocks` each factory passes. */
  function FactoryBlocks(d: DilatedResNet.Depth): (DilatedBlocks.BlockKind, seq<int>)
  {
    match d
    case Depth18 => (DilatedBlocks.BasicBlock, [2, 2, 2, 2])
    case Depth34 => (DilatedBlocks.BasicBlock, [3, 4, 6, 3])
    case Depth50 => (DilatedBlocks.Bottleneck, [3, 4, 6, 3])
    case Depth101 => (DilatedBlocks.Bottleneck, [3, 4, 23, 3])
    case Depth152 => (DilatedBlocks.Bottleneck, [3, 8, 36, 3])
  }

  /** Both ResNet files agree on every factory's kind of block and block
      counts (the block classes themselves differ: this file's come from the
      `layers` module and take other constructor arguments). */
  lemma FactoryTablesAgree(d: DilatedResNet.Depth, se: Option<DilatedBlocks.SeArgs>)
    ensures var arch := DilatedResNet.FactoryArch(d, DilatedResNet.Passed(se)).value;
      && FactoryBlocks(d).1 == arch.counts
      && FactoryBlocks(d).0 == arch.ctor.kind
  {
  }
}

=== FILE: tensorboard.dfy ===
/** The tag normalisation every summary writer of `TensorBoardX` applies
    before it writes (`add_scalar`, `add_images`, `add_histogram`). */
module TensorBoard {
  import opened Text

  /** `TensorBoardX.tag`: `tag.replace('.', '/')`. Every `.` becomes `/`;
      nothing else moves or changes, so no `.` is left. */
  function Tag(tag: string): (r: string)
    ensures |r| == |tag|
    ensures forall i :: 0 <= i < |tag| ==> r[i] == (if tag[i] == '.' then '/' else tag[i])
    ensures forall i :: 0 <= i < |r| ==> r[i] != '.'
  {
    ReplaceChar(tag, '.', '/');
    Replace(tag, ".", "/")
  }

  /** Normalising a normalised tag changes nothing. */
  lemma TagIdempotent(tag: string)
    ensures Tag(Tag(tag)) == Tag(tag)
  {
    var t := Tag(tag);
    assert forall i :: 0 <= i < |t| ==> Tag(t)[i] == t[i];
  }

  /** Two tags that differ only in `.` versus `/` normalise alike; tags that
      differ anywhere else stay apart. */
  lemma TagIdentifies(a: string, b: string)
    requires |a| == |b|
    ensures Tag(a) == Tag(b) <==>
            forall i :: 0 <= i < |a| ==> (a[i] == b[i] || (a[i] in "./" && b[i] in "./"))
  {
    if Tag(a) == Tag(b) {
      forall i | 0 <= i < |a|
        ensures a[i] == b[i] || (a[i] in "./" && b[i] in "./")
      {
        assert Tag(a)[i] == Tag(b)[i];
      }
    }
    if forall i :: 0 <= i < |a| ==> (a[i] == b[i] || (a[i] in "./" && b[i] in "./")) {
      assert forall i :: 0 <= i < |a| ==> Tag(a)[i] == Tag(b)[i];
    }
  }
}

=== FILE: text.dfy ===
/** Python string operations the logging code uses: substring tests (`p in s`)
    and `str.replace`, with the facts the log-line decisions rely on. */
module Text {

  predicate StartsWith(s: string, p: string)
  {
    |p| <= |s| && s[..|p|] == p
  }

  /** Python's `p in s`. */
  predicate Contains(s: string, p: string)
    decreases |s|
  {
    StartsWith(s, p) || (|s| > 0 && Contains(s[1..], p))
  }

  /** Python's `s.replace(pat, rep)` for a non-empty `pat`: scanning from the
      left, every non-overlapping occurrence of `pat` becomes `rep`. */
  function Replace(s: string, pat: string, rep: string): string
    requires |pat| > 0
    decreases |s|
  {
    if |s| == 0 then s
    else if StartsWith(s, pat) then rep + Replace(s[|pat|..], pat, rep)
    else [s[0]] + Replace(s[1..], pat, rep)
  }

  /** Replacing one character by another is a character-wise map. */
  lemma {:induction false} ReplaceChar(s: string, a: char, b: char)
    ensures |Replace(s, [a], [b])| == |s|
    ensures forall i :: 0 <= i < |s| ==>
              Replace(s, [a], [b])[i] == (if s[i] == a then b else s[i])
    decreases |s|
  {
    if |s| > 0 {
      ReplaceChar(s[1..], a, b);
      var t := Replace(s[1..], [a], [b]);
      if StartsWith(s, [a]) {
        assert s[..1] == [s[0]];
        assert Replace(s, [a], [b]) == [b] + t;
      } else {
        assert s[..1] == [s[0]];
        assert Replace(s, [a], [b]) == [s[0]] + t;
      }
      assert forall i :: 1 <= i < |s| ==> s[i] == s[1..][i - 1];
    }
  }

  /** A replacement by a string of the same length keeps the length. */
  lemma {:induction false} ReplaceKeepsLength(s: string, pat: string, rep: string)
    requires |pat| > 0 && |rep| == |pat|
    ensures |Replace(s, pat, rep)| == |s|
    decreases |s|
  {
    if |s| > 0 {
      if StartsWith(s, pat) {
        ReplaceKeepsLength(s[|pat|..], pat, rep);
      } else {
        ReplaceKeepsLength(s[1..], pat, rep);
      }
    }
  }

  /** Without an occurrence there is nothing to replace. */
  lemma {:induction false} ReplaceAbsent(s: string, pat: string, rep: string)
    requires |pat| > 0
    requires !Contains(s, pat)
    ensures Replace(s, pat, rep) == s
    decreases |s|
  {
    if |s| > 0 {
      ReplaceAbsent(s[1..], pat, rep);
      assert s == [s[0]] + s[1..];
    }
  }

  /** First character of `s.replace("err", "acc")`. */
  lemma ErrToAccHead(s: string)
    requires |s| > 0
    ensures |Replace(s, "err", "acc")| > 0
    ensures Replace(s, "err", "acc")[0] == (if StartsWith(s, "err") then 'a' else s[0])
  {
  }

  /** After `k.replace('err', 'acc')` no `err` is left: `acc` contains
      neither `e` nor `r`, so no new occurrence can appear. */
  lemma {:induction false} ErrToAccRemovesErr(s: string)
    ensures !Contains(Replace(s, "err", "acc"), "err")
    decreases |s|
  {
    if |s| > 0 {
      var r := Replace(s, "err", "acc");
      if StartsWith(s, "err") {
        var x := Replace(s[3..], "err", "acc");
        ErrToAccRemovesErr(s[3..]);
        assert r == "acc" + x;
        assert r[1..] == "cc" + x;
        assert r[1..][1..] == "c" + x;
        assert r[1..][1..][1..] == x;
        assert r[0] == 'a' && r[1..][0] == 'c' && r[1..][1..][0] == 'c';
        assert !Contains(r[1..][1..], "err");
        assert !Contains(r[1..], "err");
      } else {
        var x := Replace(s[1..], "err", "acc");
        ErrToAccRemovesErr(s[1..]);
        assert r == [s[0]] + x;
        assert r[1..] == x;
        ErrToAccNoNewPrefix(s);
      }
    }
  }

  /** Renaming a key that does not start with `err` does not make it start with `err`. */
  lemma ErrToAccNoNewPrefix(s: string)
    requires !StartsWith(s, "err")
    ensures !StartsWith(Replace(s, "err", "acc"), "err")
  {
    ReplaceKeepsLength(s, "err", "acc");
    if |s| >= 3 {
      var x := Replace(s[1..], "err", "acc");
      assert Replace(s, "err", "acc") == [s[0]] + x;
      ErrToAccHead(s[1..]);
      if s[0] == 'e' && s[1] == 'r' {
        assert s[2] != 'r' by { assert s[..3] != "err"; }
        assert !StartsWith(s[1..], "err");
        var y := Replace(s[2..], "err", "acc");
        assert s[1..][1..] == s[2..];
        assert x == [s[1]] + y;
        ErrToAccHead(s[2..]);
      }
    }
  }

  /** A key that contains `err` contains `acc` once renamed. */
  lemma {:induction false} ErrToAccIntroducesAcc(s: string)
    requires Contains(s, "err")
    ensures Contains(Replace(s, "err", "acc"), "acc")
    decreases |s|
  {
    var r := Replace(s, "err", "acc");
    if StartsWith(s, "err") {
      assert r[..3] == "acc";
    } else {
      ErrToAccIntroducesAcc(s[1..]);
      assert r[1..] == Replace(s[1..], "err", "acc");
    }
  }
}
